=== FILE: README.md ===
# Flower shop: pricing, ordering and catalog editing in Dafny

This project models the logic of a small flower shop that runs as a Telegram
mini-app. Customers browse a catalog of flowers and search it by name. For one
product they choose a quantity (at least 10 pieces), see a price computed from
the supplier's pack size and the shop's markup, and order with a phone number.
The shop's operator adds and removes catalog entries through a Telegram bot
dialogue.

Modules, one per concern of the source:

- `JsText` (js_text.dfy) gives exact meanings to the JavaScript built-ins the
  shop relies on. These are `parseInt(s, 10)` (a prefix parse; `None` stands
  for NaN), `parseFloat`, `trim`, `toLowerCase`, `includes`, `startsWith`, the
  `\d` class and integer `toString`.
- `Flowers` (flowers.dfy) holds the catalog record.
- `Pricing` (pricing.dfy) holds the pack pricing of the product page. The
  single-pack formula charges the markup on the ordered pieces and the
  supplier's cost on the unused rest of the pack. The multi-pack formula
  charges whole packs at the markup and treats the last pack the single-pack
  way. The per-piece price and the "order a whole pack" hint build on these.
  Money is exact: `real` arithmetic with an explicit ceiling.
- `QuantityControl` (quantity_control.dfy) holds `validateQuantity` and
  `getValidQuantity`. Its class `QuantityController` keeps the page's
  `quantity` text and `isInvalid` flag, with the -/+ buttons, typing, leaving
  the field, the pack buttons and the order button as methods.
- `FlowerCard` (flower_card.dfy) is the "from" price on a catalog card.
- `OrderPopup` (order_popup.dfy) holds the phone formatter and validator and
  the guard in front of the order request.
- `FlowerList` (flower_list.dfy) is the case-insensitive catalog search.
- `Server` (server.dfy) covers the back end. Its class `CatalogBot` holds the
  per-chat dialogue sessions and the catalog, with the `/addflower`,
  `/cancelflower`, `/listflowers` and `/deleteflower` commands and the
  seven-step message handler. The module also holds the required-field guard
  of `POST /api/order`.
- `Checkout` (checkout.dfy) joins the product page, the popup and the server
  guard. Take a product whose supplier price is at least 1, whose pack size is
  at least 1 and whose markup is not negative, which is what the bot's
  dialogue stores. Take a phone number the popup accepts. Then, whatever the
  quantity field holds, the order the page sends for that product passes the
  guard.

Behaviour of the code that the model keeps:

- The bot dialogue trims a text answer and stores it even when nothing is
  left. An answer of `"   "` for the name is stored as the empty name, and
  `Server.CheckField` accepts it.
- The order guard tests only that `flower`, `quantity`, `totalPrice` and
  `phone` are present and truthy. A negative quantity or total passes it
  (`Server.GuardChecksPresenceOnly`).
- The notification is written after the guard and outside the `try`. A
  request whose total has no callable `toLocaleString`, or whose field cannot
  be turned into text, makes the handler throw: nothing is sent and the
  request gets no answer (`Server.UnformattableTotalCrashes`).
- A new product's id is the largest id plus one. Deleting the product with the
  largest id makes the next product get that id again
  (`Server.IdReusedAfterDelete`).
- The minus button is disabled at the minimum quantity, and the order button
  while the field is flagged. `Decrease` and `HandleOrder` do nothing in those
  states.

## Model

| member | source | states |
|---|---|---|
| Pricing.Ceil | src/pages/FlowerDetailPage.jsx:44 | `Math.ceil`: the result is the integer at or above `x` and less than one above it |
| Pricing.TotalPrice | src/pages/FlowerDetailPage.jsx:39-45 | `calculateTotalPrice`, the single-pack formula; what it charges is stated by `LeftoverVanishes`, `SinglePackLeftover` and `FormulasAgree` |
| Pricing.TotalPriceMultiPack | src/pages/FlowerDetailPage.jsx:47-58 | `calculateTotalPriceMultiPack`; what it charges is stated by `MultiPackWholePacks`, `MultiPackRemainder` and `FormulasAgree` |
| Pricing.OrderTotal | src/pages/FlowerDetailPage.jsx:84-86 | the total the page shows and sends: the single-pack formula up to one pack, the multi-pack one beyond; bounded by `OrderTotalCoversUnitPrice` and fixed at whole packs by `OrderTotalAtWholePacks` |
| Pricing.PricePerPiece | src/pages/FlowerDetailPage.jsx:60-65 | the per-piece price is `ceil(total/q)`: `r*q >= total` and `(r-1)*q < total` |
| Pricing.CeilDiv | src/pages/FlowerDetailPage.jsx:64 | `Math.ceil(n / q)` for a whole divisor, also used for the hint on line 90: the least `r` with `r*q >= n`, so `r*q >= n` and `(r-1)*q < n` |
| Pricing.LeftoverVanishes | src/pages/FlowerDetailPage.jsx:39-45 | from one full pack on, the single-pack total is the rounded-up marked-up price of the pieces, with no leftover term |
| Pricing.SinglePackLeftover | src/pages/FlowerDetailPage.jsx:39-45 | below one pack, the total is `ceil(q*sp*(1+m) + (ps-q)*sp)` |
| Pricing.MultiPackWholePacks | src/pages/FlowerDetailPage.jsx:47-53 | with no remainder, the multi-pack total is the rounded-up marked-up price of all pieces |
| Pricing.MultiPackRemainder | src/pages/FlowerDetailPage.jsx:47-58 | with a remainder, the total is the marked-up price of all pieces plus the supplier cost of the unused places of the last pack, under one ceiling |
| Pricing.FormulasAgree | src/pages/FlowerDetailPage.jsx:39-63 | for `1 <= q <= ps` the two formulas give the same total, so the choice of formula on lines 61-63 and 84-86 never changes the price |
| Pricing.RosesExample | src/pages/FlowerDetailPage.jsx:84-88 | with price 350, packs of 25 and a 30% markup: 25 pieces cost 11375 (455 each), 10 cost 9800 (980 each), 30 cost 20650 (689 each) |
| Pricing.OrderTotalCoversUnitPrice | src/pages/FlowerDetailPage.jsx:84-86 | the total shown is never below the marked-up price of the ordered pieces |
| Pricing.OrderTotalAtWholePacks | src/pages/FlowerDetailPage.jsx:84-86 | an order of whole packs costs exactly the rounded-up marked-up price of its pieces |
| Pricing.PricePerPieceAtLeastUnit | src/pages/FlowerDetailPage.jsx:60-65 | no quantity gets a per-piece price below the rounded-up marked-up unit price |
| Pricing.PricePerPieceAtWholePacks | src/pages/FlowerDetailPage.jsx:60-65 | whole packs sell at exactly the rounded-up marked-up unit price per piece |
| Pricing.PricePerPieceNonIncreasing | src/pages/FlowerDetailPage.jsx:60-65 | inside a pack, one more piece never raises the per-piece price (for a non-negative price and markup) |
| Pricing.PackPrice | src/pages/FlowerDetailPage.jsx:89 | the price of one pack; `PackPricePerPieceIsUnitCeil` and `HintNeverWorse` state what the hint quotes from it |
| Pricing.PackPricePerPiece | src/pages/FlowerDetailPage.jsx:90 | the hint's per-piece price; `PackPricePerPieceIsUnitCeil` shows it is the rounded-up marked-up unit price |
| Pricing.PackPricePerPieceIsUnitCeil | src/pages/FlowerDetailPage.jsx:89-90 | the hint's per-piece price equals the rounded-up marked-up unit price |
| Pricing.HintNeverWorse | src/pages/FlowerDetailPage.jsx:217-220 | below one pack, the advertised pack costs at least as much in total and no more per piece than the current order |
| Pricing.PackOptions | src/pages/FlowerDetailPage.jsx:92-95 | the quantities of the three pack buttons; `PackOptionsAtUnitPrice` shows they are 1, 2 and 3 packs, each at the unit price per piece |
| Pricing.PackOptionsAtUnitPrice | src/pages/FlowerDetailPage.jsx:92-95 | the three pack buttons offer 1, 2 and 3 packs, each at the rounded-up unit price per piece |
| FlowerCard.CardPrice | src/components/FlowerCard.jsx:4-9 | the card price equals `ceil(sp*(1+m))`: the pack size cancels under exact arithmetic |
| FlowerCard.CardPriceIsMinimum | src/components/FlowerCard.jsx:3-9 | the card price is at most the product page's per-piece price for every quantity, and equal to it for whole packs |
| FlowerCard.CardPriceMatchesPackHint | src/components/FlowerCard.jsx:4-9 | the card price equals the product page's pack hint price (FlowerDetailPage.jsx:89-90) and the unit price shown on line 162 |
| FlowerCard.CardPriceCoversCost | src/components/FlowerCard.jsx:6-8 | with a non-negative markup the card price is at least the supplier's price |
| QuantityControl.ValidateQuantity | src/pages/FlowerDetailPage.jsx:70-74 | false for the empty text, and true exactly when `parseInt` reads a number of at least 10 |
| QuantityControl.GetValidQuantity | src/pages/FlowerDetailPage.jsx:76-80 | at least 10 always; the parsed number when the text is valid, 10 otherwise |
| QuantityControl.InputFlagsInvalid | src/pages/FlowerDetailPage.jsx:119-124 | the flag is set exactly when the text is non-empty and either not all digits or below 10 |
| QuantityControl.UnflaggedInputIsValid | src/pages/FlowerDetailPage.jsx:70-80 | non-empty text the field does not flag is a valid quantity, and it is priced at its digits' value |
| QuantityControl.PrefixInputFlaggedButValid | src/pages/FlowerDetailPage.jsx:70-74 | the converse fails: "12abc" is flagged, yet `validateQuantity` accepts it and the page prices 12 pieces |
| QuantityControl.ShownHintIsGoodDeal | src/pages/FlowerDetailPage.jsx:217-228 | whenever the hint is visible, the pack is no dearer per piece and no cheaper in total than the current order |
| QuantityControl.HintShown | src/pages/FlowerDetailPage.jsx:217 | the condition under which the hint is rendered; `ShownHintIsGoodDeal` states what it promises |
| QuantityControl.TypedOrderOpens | src/pages/FlowerDetailPage.jsx:97-125 | after typing, the order button opens the popup exactly when the text is non-empty, all digits and at least 10: the flag and `validateQuantity` together accept nothing else |
| QuantityControl.QuantityText | src/pages/FlowerDetailPage.jsx:105-114 | the text a button writes reads back as its number, clamped to at least 10 |
| QuantityControl.QuantityController.constructor | src/pages/FlowerDetailPage.jsx:13-14 | the page starts with "10" and no flag |
| QuantityControl.QuantityController.Decrease | src/pages/FlowerDetailPage.jsx:105-109 | at the minimum the button is disabled (line 176) and nothing changes; above it the quantity in effect drops by exactly one, the text is that number's `toString`, valid, and the flag is cleared |
| QuantityControl.IncreasedText | src/pages/FlowerDetailPage.jsx:111-114 | the new text stands for one more than the old text's quantity, is that number's `toString`, and is valid |
| QuantityControl.QuantityController.Increase | src/pages/FlowerDetailPage.jsx:111-114 | one more than the quantity in effect; the text is valid and the flag cleared |
| QuantityControl.QuantityController.HandleInputChange | src/pages/FlowerDetailPage.jsx:116-125 | keeps the typed text and sets the flag exactly as `InputFlagsInvalid` says |
| QuantityControl.QuantityController.HandleBlur | src/pages/FlowerDetailPage.jsx:127-132 | afterwards the text is valid; valid text is left alone, anything else becomes "10" with the flag cleared |
| QuantityControl.QuantityController.ChooseQuantity | src/pages/FlowerDetailPage.jsx:199 | a pack button or the hint's button sets the text to its quantity and clears the flag |
| QuantityControl.QuantityController.HandleOrder | src/pages/FlowerDetailPage.jsx:97-103 | the popup opens exactly when the field is not flagged (the button is disabled otherwise, lines 231-233) and the text is valid; an opened popup orders the number `parseInt` reads from the field |
| OrderPopup.Normalise | src/components/OrderPopup.jsx:16-22 | a leading 8 becomes 7, another leading digit other than 7 gets a 7 in front, and the result is empty only for empty input |
| OrderPopup.LeadingEight | src/components/OrderPopup.jsx:16-18 | digits typed with a leading 8 are read with a 7 in its place |
| OrderPopup.Slice | src/components/OrderPopup.jsx:27-30 | JavaScript `slice` with its bounds clamped to the length |
| OrderPopup.Digits | src/components/OrderPopup.jsx:15 | `replace(/\D/g, '')`, also in `validatePhone` on line 42: the result is digits only and no longer than the input; `DigitsConcat` and `DigitsCons` pin it down as the input's digits in order |
| OrderPopup.Layout | src/components/OrderPopup.jsx:26-32 | the grouping `+7 (XXX) XXX-XX-XX`; its digits and separators are stated by `LayoutDigits` and `LayoutSeparators` |
| OrderPopup.FormatPhone | src/components/OrderPopup.jsx:14-33 | `formatPhone`; `FormatPhoneEmpty`, `FormatPhoneStartsWithPlus7`, `FormatPhoneDigits` and `FormatPhoneIdempotent` state what it produces |
| OrderPopup.ValidatePhone | src/components/OrderPopup.jsx:41-44 | eleven digits starting with 7; `FormattedPhoneValid` states when a formatted field passes |
| OrderPopup.FormatPhoneEmpty | src/components/OrderPopup.jsx:14-24 | the result is empty exactly when the input holds no ASCII digit |
| OrderPopup.FormatPhoneStartsWithPlus7 | src/components/OrderPopup.jsx:16-26 | a non-empty result starts with "+7" |
| OrderPopup.FormatPhoneDigits | src/components/OrderPopup.jsx:26-30 | the digits of the result are the first (at most) eleven normalised digits, in order; the separators are " (", ") ", "-", "-", each present from 2, 5, 8 and 10 digits |
| OrderPopup.LayoutDigits | src/components/OrderPopup.jsx:26-32 | the digits of the layout are the first digit followed by the groups 2-4, 5-7, 8-9 and 10-11 that are shown |
| OrderPopup.LayoutSeparators | src/components/OrderPopup.jsx:26-32 | the non-digits of the layout are exactly the separators for the number of digits |
| OrderPopup.FormatPhoneIdempotent | src/components/OrderPopup.jsx:14-37 | formatting an already formatted field changes nothing |
| OrderPopup.FormattedPhoneValid | src/components/OrderPopup.jsx:41-44 | a formatted field passes validation exactly when at least eleven normalised digits were typed |
| OrderPopup.FormatExample | src/components/OrderPopup.jsx:14-44 | "89161234567" is shown as "+7 (916) 123-45-67", which is valid |
| OrderPopup.SubmitPhone | src/components/OrderPopup.jsx:47-68 | an order body is produced exactly when the phone is valid, and it carries the flower, quantity, total and phone; `SubmitFormattedPhone` ties it to what was typed |
| OrderPopup.SubmitFormattedPhone | src/components/OrderPopup.jsx:35-52 | submitting the formatted field yields an order exactly when at least eleven normalised digits were typed, and the phone sent carries the first eleven of them |
| FlowerList.FilterFlowers | src/pages/FlowerListPage.jsx:19-22 | a flower is kept exactly when its lower-cased name or latin name contains the lower-cased query; the result keeps catalog order |
| FlowerList.Matches | src/pages/FlowerListPage.jsx:20-21 | the search predicate; `FilterFlowers` keeps exactly the flowers it holds for and `CaseInsensitive` shows the query's case does not matter |
| FlowerList.FilterConcat | src/pages/FlowerListPage.jsx:19-22 | filtering a catalog gives the filtered parts, concatenated in order |
| FlowerList.FilterOne | src/pages/FlowerListPage.jsx:19-22 | a single flower is kept exactly when it matches |
| FlowerList.EmptyQueryKeepsAll | src/pages/FlowerListPage.jsx:19-22 | an empty search shows the whole catalog |
| FlowerList.CaseInsensitive | src/pages/FlowerListPage.jsx:19-22 | a query and its lower-cased form give the same result |
| Server.CountVerdict | server.js:141-146 | the verdict on what `parseInt` read: accepted exactly when it is a positive number, kept as that number; NaN, zero and negatives get the integer complaint; `CountRoundTrip` and `AcceptedCountHasDigit` tie it to the text typed |
| Server.CountRoundTrip | server.js:140-146 | every integer written in decimal is accepted as itself when positive and refused otherwise |
| Server.AcceptedCountHasDigit | server.js:140-146 | an accepted price or pack size holds a digit, and the count stored is the positive number `parseInt` reads from it |
| Server.MarkupVerdict | server.js:148-153 | a markup is accepted exactly when `parseFloat` read a non-negative number, stored as that number over 100 (never negative); NaN and negatives get the number complaint |
| Server.CheckField | server.js:137-156 | prices and pack sizes are taken only as positive integers, the markup only as a non-negative number and stored divided by 100, the skip word on the image step gives the default picture, and other text is stored as it is; an accepted value always has the right kind |
| Server.BuildFlower | server.js:163-164 | a product completed by the dialogue keeps the new id and has a positive price and pack size and a non-negative markup |
| Server.MaxId | server.js:163 | the largest id of a non-empty catalog: no id is larger and some record has it |
| Server.NextId | server.js:163 | the new id is the largest id plus one, or 1 for an empty catalog, and differs from every existing id |
| Server.Listed | server.js:111 | one `(id, name)` entry per product, in catalog order; `ListingCoversCatalog` shows every id is listed, and only once when ids are distinct |
| Server.ListingCoversCatalog | server.js:107-113 | an id is listed exactly when a product has it, with that product's name; with distinct ids no id is listed twice |
| Server.ReadId | server.js:118 | the id `parseInt` reads from the captured digits is their decimal value |
| Server.FindIndex | server.js:120 | -1 exactly when no product has the id, otherwise the index of the first product that has it |
| Server.AppendNewKeepsUnique | server.js:163-165 | appending a product with the new id keeps all ids distinct |
| Server.RemoveKeepsUnique | server.js:125 | removing a product keeps all ids distinct |
| Server.NextIdExample | server.js:163 | ids 1 and 3 give the new id 4; an empty catalog gives 1 |
| Server.IdReusedAfterDelete | server.js:115-128 | with ids 1, 2, 3 the next id is 4; after deleting id 3 the next id is 3 again, so an id can name two different products over time |
| Server.PackSizeExample | server.js:140-146 | a pack size of "25" is stored as 25 |
| Server.NotANumberExample | server.js:140-145 | "abc" as a pack size is refused |
| Server.ZeroPriceExample | server.js:140-145 | "0" as a price is refused |
| Server.MarkupExample | server.js:147-153 | a markup of "30" is stored as 0.3 |
| Server.FractionalMarkupExample | server.js:147-153 | a markup of "12.5" is stored as 0.125 |
| Server.SkipImageExample | server.js:154-155 | "ПРОПУСТИТЬ" on the image step stores the default picture |
| Server.CatalogBot.constructor | server.js:87 | no sessions at start |
| Server.CatalogBot.AddFlower | server.js:89-96 | another chat is refused and the sessions stay as they were; the operator's chat gets a fresh session at step 0, replacing any old one |
| Server.CatalogBot.CancelFlower | server.js:99-105 | the chat's session is removed if it has one, and nothing else changes |
| Server.CatalogBot.ListFlowers | server.js:107-113 | the operator gets the listing of the catalog, in which an id appears exactly when a product has it; other chats get nothing |
| Server.CatalogBot.DeleteFlower | server.js:115-128 | other chats change nothing; an unknown id leaves the catalog unchanged; a known id removes exactly the first product with it, keeping the others in order; ids stay distinct |
| Server.CatalogBot.RemoveAt | server.js:125-126 | the catalog loses exactly the product at the index, the others keep their order, the sessions are untouched and ids stay distinct |
| Server.CatalogBot.Advance | server.js:158-182 | the accepted value is stored under the current field and the step moves on by one; after the seventh field the product is appended with the new id and the session ends; the invariant and distinct ids are kept |
| Server.CatalogBot.OnMessage | server.js:130-183 | nothing changes without a session, without text or for a command; a refused answer changes nothing; an accepted one is stored under the current field and moves the step on by exactly one; after the seventh field the product is appended with the new id and the session ends; sessions exist only for the operator's chat, at a step from 0 to 6, holding exactly the fields asked so far; ids stay distinct |
| Server.Ignored | server.js:132-133 | the handler returns early for a chat without a session, a message without text, or a command; `CatalogBot.OnMessage` ensures such a message changes nothing and gets no reply |
| JsText.StartsWith | server.js:133 | `startsWith`: the text begins with the prefix; used by `Ignored` to skip commands |
| Server.PostOrder | server.js:36-67 | a request with a falsy field gets 400 and nothing is sent; one that passes the guard but holds a field the message cannot be written from (lines 49-58) crashes the handler, with nothing sent and no answer; any other is sent, and answered 200 or 500 as the send succeeds or fails; `GuardChecksPresenceOnly` and `Checkout.PageOrderPassesGuard` say which orders get through |
| Server.GuardPasses | server.js:39 | the guard: all four fields truthy; `PostOrder` answers 400 exactly when it fails |
| Server.Formattable | server.js:49-58 | whether a field can be written into the notification; `UnformattableTotalCrashes` shows what happens when one cannot |
| Server.UnformattableTotalCrashes | server.js:49-58 | a total whose `toLocaleString` is not a function passes the guard and then stops the handler: nothing is sent and no answer comes back |
| Server.Truthy | server.js:39 | JavaScript truthiness of a request field: `undefined`, `null`, `false`, `0`, NaN and `""` are falsy; `PostOrder` and `GuardChecksPresenceOnly` build on it |
| Server.GuardChecksPresenceOnly | server.js:36-67 | for numeric fields the order is sent exactly when quantity and total are non-zero and the phone non-empty, and answered 400 otherwise; a negative quantity and total are sent on |
| JsText.TrimStart | server.js:137 | drops exactly the leading white space |
| JsText.TrimEnd | server.js:137 | drops exactly the trailing white space |
| JsText.TrimEnds | server.js:137 | the trimmed answer has no white space at either end and occurs inside the message |
| JsText.TrimIdempotent | server.js:137 | trimming the trimmed answer again changes nothing |
| JsText.Trim | server.js:137 | `trim`; `TrimEnds` and `TrimIdempotent` state what it keeps |
| JsText.DigitPrefix | server.js:141 | the longest run of digits at the start |
| JsText.ParseInt | server.js:141 | `parseInt(s, 10)`; `ParseIntNeedsDigit`, `ParseIntDigitRun` and `ParseIntToString` state what it reads |
| JsText.ParseIntNeedsDigit | server.js:141 | `parseInt` reads a number only when a digit is present, and a negative one only when a minus sign is present |
| JsText.SignedBody | server.js:141 | what the number parsers read after white space and sign is the suffix of the text from some `k`, and they read a minus exactly when the character before `k` is a minus sign |
| JsText.ParseIntDigitRun | src/pages/FlowerDetailPage.jsx:72 | `parseInt` reads the leading run of digits and ignores what follows |
| JsText.ParseIntToString | src/pages/FlowerDetailPage.jsx:106-112 | `parseInt` reads back every integer the model's `toString` writes (exact integers: see "## Left out" for quantities from 2^53 on) |
| JsText.ParseFloat | server.js:148 | `parseFloat`; `ParseFloatNeedsDigit`, `ParseFloatDigits` and `ParseFloatFraction` state what it reads |
| JsText.ParseFloatNeedsDigit | server.js:148 | `parseFloat` reads a number only when a digit is present, and a negative one only when a minus sign is present |
| JsText.Scale | server.js:148 | scaling a non-negative mantissa by a power of ten keeps it non-negative, and exponent 0 leaves it unchanged |
| JsText.ScaleValue | server.js:148 | `Scale(m, e)` is `m * 10^e` for `e >= 0` and `m / 10^-e` below zero |
| JsText.UnsignedDigits | server.js:148 | a plain digit string is an unsigned decimal with no fraction and no exponent |
| JsText.ParseFloatDigits | server.js:148 | a plain digit string is read as its integer value |
| JsText.ParseFloatFraction | server.js:148 | digits, a point and digits read as the whole part plus the fraction digits divided by ten to their count |
| JsText.NatToString | src/pages/FlowerDetailPage.jsx:107 | non-empty digits, without a leading zero, whose value is the number |
| JsText.IntToString | src/pages/FlowerDetailPage.jsx:105-114 | `toString` of the button handlers; `ParseIntToString` shows `parseInt` reads back every number it writes and `QuantityText` what the field then holds |
| JsText.Lower | src/pages/FlowerListPage.jsx:20-21 | lower-cases each character in place, keeping the length; `LowerIdempotent` and `FlowerList.CaseInsensitive` state what the search gains from it |
| JsText.Contains | src/pages/FlowerListPage.jsx:20-21 | `includes`: the needle occurs at some position of the text; `ContainsEmpty` (every text contains the empty one) makes the empty search keep the whole catalog |
| FlowerList.ContainsEmpty | src/pages/FlowerListPage.jsx:20-21 | every text contains the empty text |
| JsText.LowerIdempotent | src/pages/FlowerListPage.jsx:20-21 | lower-casing twice is lower-casing once, which is why the search ignores the case of the query |
| Checkout.RequestOf | src/components/OrderPopup.jsx:62-67 | the order body as the server receives it: the flower an object, quantity and total numbers, the phone a string; `PageOrderPassesGuard` shows the guard accepts every body the page sends |
| Checkout.TotalAtLeastTenPrices | src/pages/FlowerDetailPage.jsx:84-86 | for a product with a positive price, an order of at least 10 pieces costs at least ten times the price |
| Checkout.PageOrderPassesGuard | server.js:36-67 | whatever the quantity field holds, an order the page places for a product the bot could have entered, with a phone the popup accepts, passes the server's guard, is sent, and is answered 200 or 500 |

## Left out

- JavaScript doubles: all prices are exact rationals. The page's results can
  differ from the model's by floating-point error before `Math.ceil`.
  Quantities are doubles too and the model's are exact integers: from 2^53
  on, `validQuantity + 1` rounds, so the plus button stops moving the
  quantity; from 10^21 on, `toString` writes exponent form ("1e+21"), which
  `parseInt` reads as 1.
- `parseFloat` reading `Infinity`, and `parseInt` on digit strings too long
  for a double.
- `toLowerCase` beyond ASCII and the basic Cyrillic block (U+0400 to U+042F).
  Other characters are left unchanged.
- The bot's dispatch of messages to handlers by unanchored regular
  expressions. Each handler is a method; the model does not capture that a
  text containing a command elsewhere in it reaches both the command and the
  message handler.
- The `/deleteflower` argument is taken as the digit string the pattern
  captures (a precondition of `Server.CatalogBot.DeleteFlower`).
- Reading and writing the catalog file. The catalog is the `flowers` field.
  The model treats the process and the store as always in step.
- Message texts, Markdown, dates and `toLocaleString`. Replies are the
  `Server.Reply` values.
- Express routing, CORS and JSON plumbing. React rendering, `fetch`,
  `alert`, the Telegram back button and `window.open` are also left out.
- Server.CatalogBot.OnMessage: a session is replaced by a new value rather
  than updated in place. The source holds no other reference to it, so
  nothing observable differs.
- Pricing.TotalPriceMultiPack, Pricing.OrderTotal, Pricing.PricePerPiece: a
  pack size of at least 1 is required. With a pack size of 0 JavaScript
  computes NaN, which the model does not represent. A negative pack size,
  which only a hand-edited catalog holds, gives finite numbers in JavaScript
  (a floored quotient, a remainder truncated toward zero) that the model
  does not cover either.
- FlowerCard.CardPrice: a pack size other than 0 is required, for the same
  reason.
- Server.PostOrder: `JsValue` distinguishes only what truthiness and
  writing the message need. The text of the message is not modelled, and
  `Crashed` stands for the rejected promise of the async handler (Express
  then sends no answer).
- src/App.jsx and src/components/SearchBar.jsx carry no logic and are not part
  of this model.

=== FILE: checkout.dfy ===
/** The path of an order from the product page to the back end: the quantity
    and total the page computes, the body the popup posts and the guard of
    `POST /api/order`. */
module Checkout {
  import opened JsText
  import opened Flowers
  import opened Pricing
  import opened QuantityControl
  import opened OrderPopup
  import opened Server

  /** The JSON the popup sends, as the server sees its fields. */
  function RequestOf(body: OrderBody): (req: OrderRequest)
    ensures req.flower == Object
    ensures req.quantity == Num(body.quantity as real) && req.totalPrice == Num(body.totalPrice as real)
    ensures req.phone == Str(body.phone)
  {
    OrderRequest(Object, Num(body.quantity as real), Num(body.totalPrice as real), Str(body.phone))
  }

  /** A product with a positive price is never free: the total of an order of
      at least the minimum quantity is at least ten times its price. */
  lemma {:induction false} TotalAtLeastTenPrices(f: Flower, q: int)
    requires f.packSize >= 1 && f.supplierPrice >= 1 && f.markup >= 0.0
    requires q >= MinQuantity
    ensures OrderTotal(f, q) >= 10 * f.supplierPrice
  {
    OrderTotalCoversUnitPrice(f, q);
    TenPiecesCost(OrderTotal(f, q), f.supplierPrice, f.markup, q);
  }

  lemma TenPiecesCost(total: int, sp: int, m: real, q: int)
    requires sp >= 0 && m >= 0.0 && q >= 10
    requires total as real >= q as real * (sp as real * (1.0 + m))
    ensures total >= 10 * sp
  {
    var p := sp as real;
    MulMonoReal(0.0, p, m);
    assert p * (1.0 + m) == p + p * m;
    MulMonoReal(10.0, q as real, p);
    MulMonoReal(p, p * (1.0 + m), q as real);
    assert total as real >= 10.0 * p;
  }

  /** A valid phone number is not empty text. */
  lemma ValidPhoneNotEmpty(phone: string)
    requires ValidatePhone(phone)
    ensures phone != ""
  {
  }

  /** Whatever the quantity field holds, an order the page places for a
      product the catalog bot could have entered, with a phone number the
      popup accepts, passes the server's guard and is sent on. */
  lemma PageOrderPassesGuard(f: Flower, quantityText: string, phone: string, delivered: bool)
    requires f.packSize >= 1 && f.supplierPrice >= 1 && f.markup >= 0.0
    requires ValidatePhone(phone)
    ensures var q := GetValidQuantity(quantityText);
      var body := SubmitPhone(f, q, OrderTotal(f, q), phone);
      && body.Some?
      && PostOrder(RequestOf(body.value), delivered) == Answered(if delivered then 200 else 500, true)
  {
    var q := GetValidQuantity(quantityText);
    TotalAtLeastTenPrices(f, q);
    ValidPhoneNotEmpty(phone);
  }
}

=== FILE: flower_card.dfy ===
/** The price on a catalog card (src/components/FlowerCard.jsx), advertised as
    the lowest per-piece price a customer can get. */
module FlowerCard {
  import opened Flowers
  import opened Pricing

  /** `calculateCardPrice`: the marked-up price of a pack divided back over
      its pieces and rounded up. Under exact arithmetic the pack size cancels. */
  function CardPrice(f: Flower): (r: int)
    requires f.packSize != 0
    ensures r == Ceil(UnitPrice(f))
  {
    var packCost := f.supplierPrice as real * f.packSize as real;
    var packPriceWithMarkup := packCost * (1.0 + f.markup);
    assert packPriceWithMarkup / f.packSize as real == UnitPrice(f);
    Ceil(packPriceWithMarkup / f.packSize as real)
  }

  /** The card never advertises more than the product page charges per piece,
      and it is exactly the page's price for whole packs: it is the minimum. */
  lemma {:induction false} CardPriceIsMinimum(f: Flower, q: int)
    requires f.packSize >= 1 && q >= 1
    requires f.supplierPrice >= 0 && f.markup >= 0.0
    ensures CardPrice(f) <= PricePerPiece(f, q)
    ensures q % f.packSize == 0 ==> CardPrice(f) == PricePerPiece(f, q)
  {
    PricePerPieceAtLeastUnit(f, q);
    if q % f.packSize == 0 {
      PricePerPieceAtWholePacks(f, q);
    }
  }

  /** The card agrees with the product page's "order a whole pack" hint. */
  lemma {:induction false} CardPriceMatchesPackHint(f: Flower)
    requires f.packSize >= 1
    ensures CardPrice(f) == PackPricePerPiece(f)
  {
    PackPricePerPieceIsUnitCeil(f);
  }

  /** With a non-negative markup the card price covers the supplier's price. */
  lemma {:induction false} CardPriceCoversCost(f: Flower)
    requires f.packSize != 0 && f.supplierPrice >= 0 && f.markup >= 0.0
    ensures CardPrice(f) >= f.supplierPrice
  {
    MulMonoReal(0.0, f.supplierPrice as real, f.markup);
    assert UnitPrice(f) == f.supplierPrice as real + f.supplierPrice as real * f.markup;
  }
}

=== FILE: flower_list.dfy ===
/** The catalog search of the list page (src/pages/FlowerListPage.jsx). */
module FlowerList {
  import opened JsText
  import opened Flowers

  /** The search predicate: the lower-cased name or latin name contains the
      lower-cased query. */
  predicate Matches(f: Flower, query: string) {
    Contains(Lower(f.name), Lower(query)) || Contains(Lower(f.latin), Lower(query))
  }

  /** `a` can be obtained from `b` by dropping elements. */
  predicate IsSubsequence(a: seq<Flower>, b: seq<Flower>) {
    if a == [] then true
    else if b == [] then false
    else if a[0] == b[0] then IsSubsequence(a[1..], b[1..])
    else IsSubsequence(a, b[1..])
  }

  /** `filteredFlowers`: the matching flowers, in catalog order. */
  function FilterFlowers(flowers: seq<Flower>, query: string): (r: seq<Flower>)
    ensures forall f :: f in r <==> f in flowers && Matches(f, query)
    ensures IsSubsequence(r, flowers)
  {
    if flowers == [] then []
    else
      var rest := FilterFlowers(flowers[1..], query);
      if Matches(flowers[0], query) then
        assert ([flowers[0]] + rest)[1..] == rest;
        [flowers[0]] + rest
      else
        assert rest != [] ==> rest[0] != flowers[0];
        rest
  }

  /** Filtering works piece by piece: the result for a catalog is the results
      for its parts, in the same order. */
  lemma {:induction false} FilterConcat(a: seq<Flower>, b: seq<Flower>, query: string)
    ensures FilterFlowers(a + b, query) == FilterFlowers(a, query) + FilterFlowers(b, query)
  {
    if a == [] {
      assert a + b == b;
    } else {
      assert (a + b)[0] == a[0];
      assert (a + b)[1..] == a[1..] + b;
      FilterConcat(a[1..], b, query);
    }
  }

  /** A single flower is kept exactly when it matches. */
  lemma FilterOne(f: Flower, query: string)
    ensures FilterFlowers([f], query) == if Matches(f, query) then [f] else []
  {
    assert [f][1..] == [];
  }

  /** Every text contains the empty text. */
  lemma ContainsEmpty(hay: string)
    ensures Contains(hay, "")
  {
    assert OccursAt(hay, "", 0);
  }

  /** An empty search box shows the whole catalog. */
  lemma {:induction false} EmptyQueryKeepsAll(flowers: seq<Flower>)
    ensures FilterFlowers(flowers, "") == flowers
  {
    if flowers != [] {
      ContainsEmpty(Lower(flowers[0].name));
      assert Lower("") == "";
      EmptyQueryKeepsAll(flowers[1..]);
    }
  }

  /** The search ignores the case of the query. */
  lemma {:induction false} CaseInsensitive(flowers: seq<Flower>, query: string)
    ensures FilterFlowers(flowers, query) == FilterFlowers(flowers, Lower(query))
  {
    if flowers != [] {
      LowerIdempotent(query);
      CaseInsensitive(flowers[1..], query);
    }
  }
}

=== FILE: flowers.dfy ===
/** The catalog record shared by the server and the web pages. */
module Flowers {

  /** One product of the catalog file. `markup` is a fraction (0.30 for 30%). */
  datatype Flower = Flower(
    id: int,
    name: string,
    latin: string,
    supplierPrice: int,
    packSize: int,
    markup: real,
    image: string,
    description: string)
}

=== FILE: js_text.dfy ===
/** The JavaScript string and number built-ins the shop relies on, given an exact
    meaning over `seq<char>`: `parseInt(s, 10)`, `parseFloat(s)`, `trim`,
    `toLowerCase`, `includes`, `startsWith`, the `\d` character class and
    `Number.prototype.toString` on integers. */
module JsText {

  datatype Option<+T> = None | Some(value: T)

  /** ECMAScript WhiteSpace and LineTerminator code points: what `trim`,
      `parseInt` and `parseFloat` skip. */
  predicate IsSpace(c: char) {
    var n := c as int;
    n == 0x09 || n == 0x0A || n == 0x0B || n == 0x0C || n == 0x0D || n == 0x20 ||
    n == 0xA0 || n == 0x1680 || (0x2000 <= n <= 0x200A) || n == 0x2028 ||
    n == 0x2029 || n == 0x202F || n == 0x205F || n == 0x3000 || n == 0xFEFF
  }

  /** The regular-expression class `\d` (ASCII digits only). */
  predicate IsDigit(c: char) {
    '0' <= c <= '9'
  }

  predicate AllDigits(s: string) {
    forall i :: 0 <= i < |s| ==> IsDigit(s[i])
  }

  predicate StartsWith(s: string, prefix: string) {
    |prefix| <= |s| && s[..|prefix|] == prefix
  }

  /** `hay.includes(needle)` */
  predicate Contains(hay: string, needle: string) {
    exists i :: 0 <= i <= |hay| - |needle| && OccursAt(hay, needle, i)
  }

  predicate OccursAt(hay: string, needle: string, i: int)
    requires 0 <= i <= |hay| - |needle|
  {
    hay[i..i + |needle|] == needle
  }

  /** Drops leading white space, as the number parsers do. */
  function TrimStart(s: string): (r: string)
    ensures |r| <= |s| && r == s[|s| - |r|..]
    ensures r == [] || !IsSpace(r[0])
    ensures forall i :: 0 <= i < |s| - |r| ==> IsSpace(s[i])
  {
    if |s| > 0 && IsSpace(s[0]) then
      var r := TrimStart(s[1..]);
      assert s[1..][|s| - 1 - |r|..] == s[|s| - |r|..];
      assert forall i :: 1 <= i < |s| ==> s[i] == s[1..][i - 1];
      r
    else s
  }

  function TrimEnd(s: string): (r: string)
    ensures |r| <= |s| && r == s[..|r|]
    ensures r == [] || !IsSpace(r[|r| - 1])
    ensures forall i :: |r| <= i < |s| ==> IsSpace(s[i])
  {
    if |s| > 0 && IsSpace(s[|s| - 1]) then TrimEnd(s[..|s| - 1]) else s
  }

  /** `s.trim()` */
  function Trim(s: string): string {
    TrimEnd(TrimStart(s))
  }

  /** `trim` leaves no white space at either end and takes away none from
      inside. */
  lemma TrimEnds(s: string)
    ensures var r := Trim(s);
      && (r == [] || (!IsSpace(r[0]) && !IsSpace(r[|r| - 1])))
      && exists i :: 0 <= i <= |s| - |r| && OccursAt(s, r, i)
  {
    var t := TrimStart(s);
    var r := TrimEnd(t);
    var k := |s| - |t|;
    assert r == [] || (!IsSpace(r[0]) && !IsSpace(r[|r| - 1])) by {
      if r != [] {
        assert r[0] == t[0];
      }
    }
    assert OccursAt(s, r, k) by {
      assert t == s[k..];
      assert t[..|r|] == s[k..k + |r|];
    }
  }

  /** Trimming a second time changes nothing. */
  lemma TrimIdempotent(s: string)
    ensures Trim(Trim(s)) == Trim(s)
  {
    TrimEnds(s);
    TrimUnspaced(Trim(s));
  }

  /** Text with no white space at its ends is its own trim. */
  lemma TrimUnspaced(s: string)
    requires s == [] || (!IsSpace(s[0]) && !IsSpace(s[|s| - 1]))
    ensures Trim(s) == s
  {
  }

  /** The longest prefix of `s` made of digits. */
  function DigitPrefix(s: string): (d: string)
    ensures |d| <= |s| && d == s[..|d|]
    ensures AllDigits(d)
    ensures |d| == |s| || !IsDigit(s[|d|])
  {
    if |s| > 0 && IsDigit(s[0]) then [s[0]] + DigitPrefix(s[1..]) else []
  }

  /** The value of a digit string read in base 10 (0 for the empty string). */
  function DigitsValue(d: string): nat
    requires AllDigits(d)
  {
    if d == [] then 0 else 10 * DigitsValue(d[..|d| - 1]) + (d[|d| - 1] as int - '0' as int)
  }

  /** Strips one leading `+` or `-`; says whether it was a minus. */
  function SplitSign(t: string): (bool, string) {
    if |t| > 0 && (t[0] == '-' || t[0] == '+') then (t[0] == '-', t[1..]) else (false, t)
  }

  /** `parseInt(s, 10)`: leading white space, an optional sign, then the longest
      run of digits; `None` stands for NaN (no digit at all). */
  function ParseInt(s: string): Option<int> {
    var (negative, body) := SplitSign(TrimStart(s));
    var d := DigitPrefix(body);
    if d == [] then None
    else Some(if negative then -(DigitsValue(d) as int) else DigitsValue(d))
  }

  /** `parseInt` reads a number only when the text holds a digit, and a
      negative one only when it holds a minus sign. */
  lemma ParseIntNeedsDigit(s: string)
    ensures ParseInt(s).Some? ==> exists i :: 0 <= i < |s| && IsDigit(s[i])
    ensures ParseInt(s).Some? && ParseInt(s).value < 0 ==> exists i :: 0 <= i < |s| && s[i] == '-'
  {
    var body := SplitSign(TrimStart(s)).1;
    var d := DigitPrefix(body);
    if d != [] {
      var k := SignedBody(s);
      assert s[k] == body[0] == d[0];
    }
  }

  /** What the number parsers read after the white space and the sign is the
      suffix of the input from `k` on, preceded by a minus sign when they read
      one. */
  lemma SignedBody(s: string) returns (k: nat)
    ensures k <= |s| && SplitSign(TrimStart(s)).1 == s[k..]
    ensures SplitSign(TrimStart(s)).0 <==> 1 <= k && s[k - 1] == '-'
  {
    var t := TrimStart(s);
    var j := |s| - |t|;
    assert t == s[j..];
    if |t| > 0 && (t[0] == '-' || t[0] == '+') {
      k := j + 1;
      assert s[j] == t[0];
      assert t[1..] == s[k..];
      assert SplitSign(t) == (t[0] == '-', t[1..]);
    } else {
      k := j;
      assert SplitSign(t) == (false, t);
      if 1 <= j {
        LeadingSpace(s, j - 1);
      }
    }
  }

  /** A character `TrimStart` removes is not a minus sign. */
  lemma LeadingSpace(s: string, i: nat)
    requires i < |s| - |TrimStart(s)|
    ensures s[i] != '-'
  {
    SpaceIsNotMinus(s[i]);
  }

  lemma DigitIsNotSpace(c: char)
    requires IsDigit(c)
    ensures !IsSpace(c)
  {
  }

  lemma SpaceIsNotMinus(c: char)
    requires IsSpace(c)
    ensures c != '-'
  {
  }

  /** The optional exponent part `e[+-]digits` of a decimal literal, 0 when the
      text does not start with a complete one. */
  function Exponent(s: string): int {
    if |s| >= 2 && (s[0] == 'e' || s[0] == 'E') then
      var (negative, body) := SplitSign(s[1..]);
      var d := DigitPrefix(body);
      if d == [] then 0 else if negative then -(DigitsValue(d) as int) else DigitsValue(d)
    else 0
  }

  /** `m` times ten to the power `e`, one factor of ten at a time. */
  function Scale(m: real, e: int): (r: real)
    ensures m >= 0.0 ==> r >= 0.0
    ensures e == 0 ==> r == m
  {
    if e >= 0 then Times10(m, e) else Over10(m, -e)
  }

  function Times10(m: real, n: nat): (r: real)
    ensures m >= 0.0 ==> r >= 0.0
  {
    if n == 0 then m else 10.0 * Times10(m, n - 1)
  }

  function Over10(m: real, n: nat): (r: real)
    ensures m >= 0.0 ==> r >= 0.0
  {
    if n == 0 then m else Over10(m, n - 1) / 10.0
  }

  function Pow10(n: nat): (r: nat)
    ensures r >= 1
  {
    if n == 0 then 1 else 10 * Pow10(n - 1)
  }

  /** What `Scale` computes: `m * 10^e`, written as a division for a negative
      exponent. */
  lemma ScaleValue(m: real, e: int)
    ensures e >= 0 ==> Scale(m, e) == m * Pow10(e) as real
    ensures e < 0 ==> Scale(m, e) == m / Pow10(-e) as real
  {
    if e >= 0 {
      ScaleUp(m, e);
    } else {
      ScaleDown(m, -e);
    }
  }

  lemma {:induction false} ScaleUp(m: real, n: nat)
    ensures Times10(m, n) == m * Pow10(n) as real
  {
    if n > 0 {
      ScaleUp(m, n - 1);
      assert Pow10(n) as real == 10.0 * Pow10(n - 1) as real;
      MulTen(m, Pow10(n - 1) as real);
    }
  }

  lemma {:induction false} ScaleDown(m: real, n: nat)
    ensures Over10(m, n) == m / Pow10(n) as real
  {
    if n > 0 {
      ScaleDown(m, n - 1);
      assert Pow10(n) as real == 10.0 * Pow10(n - 1) as real;
      DivTen(m, Pow10(n - 1) as real);
    }
  }

  lemma MulTen(m: real, p: real)
    ensures 10.0 * (m * p) == m * (10.0 * p)
  {
  }

  lemma DivTen(m: real, p: real)
    requires p > 0.0
    ensures (m / p) / 10.0 == m / (10.0 * p)
  {
    var x := m / p;
    assert x * p == m;
    assert (x / 10.0) * (10.0 * p) == m;
  }

  /** The parts of an unsigned decimal literal: the digits before the point,
      the digits after it, and the rest, where an exponent may start. */
  datatype DecimalParts = DecimalParts(whole: string, fraction: string, tail: string)

  /** Splits a literal at the end of its whole part and, when a point follows,
      at the end of its fraction. */
  function SplitDecimal(body: string): (p: DecimalParts)
    ensures AllDigits(p.whole) && AllDigits(p.fraction)
  {
    var whole := DigitPrefix(body);
    var hasPoint := |whole| < |body| && body[|whole|] == '.';
    var fraction := if hasPoint then DigitPrefix(body[|whole| + 1..]) else [];
    var tail := if hasPoint then body[|whole| + 1 + |fraction|..] else body[|whole|..];
    DecimalParts(whole, fraction, tail)
  }

  /** An unsigned decimal literal read as far as it goes: digits, an optional
      `.` with more digits, an optional exponent; `None` when neither the whole
      part nor the fraction has a digit. */
  function UnsignedDecimal(body: string): (r: Option<real>)
    ensures r.Some? ==> r.value >= 0.0
  {
    var p := SplitDecimal(body);
    if p.whole == [] && p.fraction == [] then None
    else Some(DecimalValue(DigitsValue(p.whole), DigitsValue(p.fraction), |p.fraction|, Exponent(p.tail)))
  }

  function DecimalValue(whole: nat, fraction: nat, places: nat, e: int): (r: real)
    ensures r >= 0.0
  {
    Scale(whole as real + Scale(fraction as real, -(places as int)), e)
  }

  /** `parseFloat(s)` on decimal literals: leading white space, an optional
      sign, then the longest unsigned decimal literal; `None` stands for NaN.
      The literal `Infinity` is not read. */
  function ParseFloat(s: string): Option<real> {
    var (negative, body) := SplitSign(TrimStart(s));
    match UnsignedDecimal(body)
    case None => None
    case Some(magnitude) => Some(if negative then -magnitude else magnitude)
  }

  /** `parseFloat` reads a number only when the text holds a digit, and a
      negative one only when it holds a minus sign. */
  lemma ParseFloatNeedsDigit(s: string)
    ensures ParseFloat(s).Some? ==> exists i :: 0 <= i < |s| && IsDigit(s[i])
    ensures ParseFloat(s).Some? && ParseFloat(s).value < 0.0 ==> exists i :: 0 <= i < |s| && s[i] == '-'
  {
    FloatHasDigit(s);
    FloatHasMinus(s);
  }

  lemma FloatHasDigit(s: string)
    ensures ParseFloat(s).Some? ==> exists i :: 0 <= i < |s| && IsDigit(s[i])
  {
    FloatParts(s);
    BodyHasDigit(s);
  }

  /** A literal after the sign with a digit in its whole part or fraction
      comes from a text with a digit. */
  lemma BodyHasDigit(s: string)
    ensures var p := SplitDecimal(SplitSign(TrimStart(s)).1);
      p.whole != [] || p.fraction != [] ==> exists i :: 0 <= i < |s| && IsDigit(s[i])
  {
    var body := SplitSign(TrimStart(s)).1;
    var k := SignedBody(s);
    var p := SplitDecimal(body);
    if p.whole != [] {
      assert IsDigit(body[0]) && s[k] == body[0];
    } else if p.fraction != [] {
      assert body[1] == p.fraction[0];
      assert IsDigit(body[1]) && s[k + 1] == body[1];
    }
  }

  lemma FloatHasMinus(s: string)
    ensures ParseFloat(s).Some? && ParseFloat(s).value < 0.0 ==> exists i :: 0 <= i < |s| && s[i] == '-'
  {
    var k := SignedBody(s);
    FloatParts(s);
    if SplitSign(TrimStart(s)).0 {
      assert s[k - 1] == '-';
    }
  }

  /** A number comes from an unsigned literal after the sign, and is negative
      only after a minus. */
  lemma FloatParts(s: string)
    ensures var p := SplitDecimal(SplitSign(TrimStart(s)).1);
      ParseFloat(s).Some? ==> p.whole != [] || p.fraction != []
    ensures ParseFloat(s).Some? && ParseFloat(s).value < 0.0 ==> SplitSign(TrimStart(s)).0
  {
  }

  function DigitChar(n: nat): (c: char)
    requires n < 10
    ensures IsDigit(c) && c as int - '0' as int == n
  {
    ('0' as int + n) as char
  }

  /** `n.toString()` for a natural number. */
  function NatToString(n: nat): (s: string)
    ensures s != [] && AllDigits(s)
    ensures DigitsValue(s) == n
    ensures n > 0 ==> s[0] != '0'
  {
    if n < 10 then [DigitChar(n)]
    else
      var s := NatToString(n / 10) + [DigitChar(n % 10)];
      assert s[..|s| - 1] == NatToString(n / 10);
      s
  }

  /** `n.toString()` for an integer. */
  function IntToString(n: int): string {
    if n < 0 then "-" + NatToString(-n) else NatToString(n)
  }

  /** Lower-casing of ASCII letters and of the basic Cyrillic block
      (U+0400..U+042F); every other character is left as it is. */
  function LowerChar(c: char): char {
    if 'A' <= c <= 'Z' then (c as int + 32) as char
    else if 0x410 <= c as int <= 0x42F then (c as int + 32) as char
    else if 0x400 <= c as int <= 0x40F then (c as int + 80) as char
    else c
  }

  /** `s.toLowerCase()` */
  function Lower(s: string): (r: string)
    ensures |r| == |s|
    ensures forall i :: 0 <= i < |s| ==> r[i] == LowerChar(s[i])
  {
    seq(|s|, i requires 0 <= i < |s| => LowerChar(s[i]))
  }

  lemma LowerIdempotent(s: string)
    ensures Lower(Lower(s)) == Lower(s)
  {
  }

  /** A run of digits followed by anything that does not continue it parses as
      that run: `parseInt` reads a prefix. */
  lemma ParseIntDigitRun(d: string, rest: string)
    requires d != [] && AllDigits(d)
    requires rest == [] || !IsDigit(rest[0])
    ensures ParseInt(d + rest) == Some(DigitsValue(d))
  {
    var s := d + rest;
    assert s[0] == d[0];
    assert TrimStart(s) == s;
    assert SplitSign(s) == (false, s);
    DigitPrefixOfRun(d, rest);
  }

  lemma {:induction false} DigitPrefixOfRun(d: string, rest: string)
    requires AllDigits(d)
    requires rest == [] || !IsDigit(rest[0])
    ensures DigitPrefix(d + rest) == d
  {
    if d != [] {
      assert (d + rest)[1..] == d[1..] + rest;
      DigitPrefixOfRun(d[1..], rest);
    }
  }

  /** `parseInt` reads back what `toString` writes, for every integer. */
  lemma ParseIntToString(n: int)
    ensures ParseInt(IntToString(n)) == Some(n)
  {
    if n < 0 {
      var d := NatToString(-n);
      var s := "-" + d;
      assert TrimStart(s) == s;
      assert SplitSign(s) == (true, d);
      DigitPrefixOfRun(d, []);
      assert d + [] == d;
    } else {
      var d := NatToString(n);
      assert TrimStart(d) == d;
      ParseIntDigitRun(d, []);
      assert d + [] == d;
    }
  }

  /** `parseFloat` of a plain digit string is its integer value. */
  lemma ParseFloatDigits(d: string)
    requires d != [] && AllDigits(d)
    ensures ParseFloat(d) == Some(DigitsValue(d) as real)
  {
    assert TrimStart(d) == d;
    assert SplitSign(d) == (false, d);
    UnsignedDigits(d);
  }

  /** A decimal with a fraction: a text made of the digits `w`, a point and
      the digits `d` reads as `w` plus `d` scaled down by `|d|` powers of ten
      (`ScaleValue` turns that into `d / 10^|d|`). */
  lemma ParseFloatFraction(s: string, w: string, d: string)
    requires w != [] && AllDigits(w) && AllDigits(d)
    requires |s| == |w| + 1 + |d| && s[..|w|] == w && s[|w|] == '.' && s[|w| + 1..] == d
    ensures ParseFloat(s) == Some(DigitsValue(w) as real + Scale(DigitsValue(d) as real, -|d|))
  {
    assert TrimStart(s) == s by {
      assert s[0] == w[0];
      DigitIsNotSpace(s[0]);
    }
    assert SplitSign(s) == (false, s);
    UnsignedFraction(s, w, d);
  }

  lemma UnsignedFraction(s: string, w: string, d: string)
    requires w != [] && AllDigits(w) && AllDigits(d)
    requires |s| == |w| + 1 + |d| && s[..|w|] == w && s[|w|] == '.' && s[|w| + 1..] == d
    ensures UnsignedDecimal(s) == Some(DigitsValue(w) as real + Scale(DigitsValue(d) as real, -|d|))
  {
    PointDecimal(s, w, d);
    NoExponent(w, d);
  }

  lemma PointDecimal(s: string, w: string, d: string)
    requires w != [] && AllDigits(w) && AllDigits(d)
    requires |s| == |w| + 1 + |d| && s[..|w|] == w && s[|w|] == '.' && s[|w| + 1..] == d
    ensures UnsignedDecimal(s) == Some(DecimalValue(DigitsValue(w), DigitsValue(d), |d|, 0))
  {
    PointShape(s, w, d);
    PointParts(s, w, d);
    assert Exponent([]) == 0;
  }

  lemma NoExponent(w: string, d: string)
    requires AllDigits(w) && AllDigits(d)
    ensures DecimalValue(DigitsValue(w), DigitsValue(d), |d|, 0) == DigitsValue(w) as real + Scale(DigitsValue(d) as real, -|d|)
  {
  }

  lemma PointShape(s: string, w: string, d: string)
    requires AllDigits(w) && AllDigits(d)
    requires |s| == |w| + 1 + |d| && s[..|w|] == w && s[|w|] == '.' && s[|w| + 1..] == d
    ensures DigitPrefix(s) == w && DigitPrefix(s[|w| + 1..]) == d && s[|w| + 1 + |d|..] == []
  {
    assert s == w + s[|w|..];
    DigitPrefixOfRun(w, s[|w|..]);
    assert d == d + [];
    DigitPrefixOfRun(d, []);
  }

  /** The split of a body made of digits, a point and digits. */
  lemma PointParts(body: string, whole: string, fraction: string)
    requires whole == DigitPrefix(body) && |whole| < |body| && body[|whole|] == '.'
    requires fraction == DigitPrefix(body[|whole| + 1..])
    requires |body| == |whole| + 1 + |fraction|
    ensures SplitDecimal(body) == DecimalParts(whole, fraction, [])
  {
    assert body[|whole| + 1 + |fraction|..] == [];
  }

  /** A plain digit string is an unsigned decimal with no fraction and no
      exponent. */
  lemma UnsignedDigits(d: string)
    requires d != [] && AllDigits(d)
    ensures UnsignedDecimal(d) == Some(DigitsValue(d) as real)
  {
    DigitsParts(d);
    assert DigitsValue([]) == 0 && Exponent([]) == 0;
    assert DecimalValue(DigitsValue(d), 0, 0, 0) == DigitsValue(d) as real;
  }

  /** The split of a plain digit string: all whole part. */
  lemma DigitsParts(d: string)
    requires AllDigits(d)
    ensures SplitDecimal(d) == DecimalParts(d, [], [])
  {
    DigitPrefixOfRun(d, []);
    assert d + [] == d;
    assert d[|d|..] == [];
  }
}

=== FILE: order_popup.dfy ===
/** The phone field of the order popup (src/components/OrderPopup.jsx): every
    keystroke re-formats the field as a Russian number `+7 (XXX) XXX-XX-XX`,
    and an order is sent only for a complete number. */
module OrderPopup {
  import opened JsText
  import opened Flowers

  /** `s.replace(/\D/g, '')`: the ASCII digits of `s`, in order. */
  function Digits(s: string): (d: string)
    ensures AllDigits(d) && |d| <= |s|
  {
    if s == [] then [] else (if IsDigit(s[0]) then [s[0]] else []) + Digits(s[1..])
  }

  /** Everything in `s` that is not an ASCII digit, in order. */
  function NonDigits(s: string): (r: string)
    ensures forall i :: 0 <= i < |r| ==> !IsDigit(r[i])
  {
    if s == [] then [] else (if IsDigit(s[0]) then [] else [s[0]]) + NonDigits(s[1..])
  }

  /** The leading-digit rule of `formatPhone`: a leading 8 becomes 7, and any
      other leading digit but 7 gets a 7 in front. */
  function Normalise(d: string): (r: string)
    ensures d == [] <==> r == []
    ensures r != [] ==> r[0] == '7'
    ensures AllDigits(d) ==> AllDigits(r)
    ensures |d| > 0 && d[0] == '8' ==> r == "7" + d[1..]
    ensures |d| > 0 && d[0] != '8' && d[0] != '7' ==> r == "7" + d
    ensures |d| > 0 && d[0] == '7' ==> r == d
  {
    if |d| > 0 then
      if d[0] == '8' then "7" + d[1..]
      else if d[0] != '7' then "7" + d
      else d
    else d
  }

  /** JavaScript `s.slice(i, j)` for `0 <= i <= j`: the bounds are clamped to
      the length. */
  function Slice(s: string, i: nat, j: nat): (r: string)
    requires i <= j
    ensures |s| <= i ==> r == []
    ensures |s| >= j ==> r == s[i..j]
    ensures i <= |s| <= j ==> r == s[i..]
  {
    var a := if i < |s| then i else |s|;
    var b := if j < |s| then j else |s|;
    s[a..b]
  }

  /** The first `n` characters, or all of them when there are fewer. */
  function Take(d: string, n: nat): (r: string)
    ensures |r| == if |d| < n then |d| else n
    ensures r == d[..|r|]
  {
    if |d| <= n then d else d[..n]
  }

  /** The layout part of `formatPhone`, applied to normalised digits. */
  function Layout(d: string): string {
    if |d| == 0 then ""
    else
      "+" + [d[0]]
      + (if |d| > 1 then " (" + Slice(d, 1, 4) else "")
      + (if |d| >= 5 then ") " + Slice(d, 4, 7) else "")
      + (if |d| >= 8 then "-" + Slice(d, 7, 9) else "")
      + (if |d| >= 10 then "-" + Slice(d, 9, 11) else "")
  }

  /** `formatPhone` */
  function FormatPhone(input: string): string {
    Layout(Normalise(Digits(input)))
  }

  /** `validatePhone`: eleven digits, the first a 7. */
  predicate ValidatePhone(phone: string) {
    var digits := Digits(phone);
    |digits| == 11 && digits[0] == '7'
  }

  /** The body `handlePhoneSubmit` posts to `/api/order`. */
  datatype OrderBody = OrderBody(flower: Flower, quantity: int, totalPrice: int, phone: string)

  /** `handlePhoneSubmit`: `None` is the error shown in place of a request. */
  function SubmitPhone(f: Flower, quantity: int, totalPrice: int, phone: string): (r: Option<OrderBody>)
    ensures r.Some? <==> ValidatePhone(phone)
    ensures r.Some? ==> r.value == OrderBody(f, quantity, totalPrice, phone)
  {
    if !ValidatePhone(phone) then None
    else Some(OrderBody(f, quantity, totalPrice, phone))
  }

  // ---------------------------------------------------------------------
  // Digits and separators

  lemma {:induction false} DigitsConcat(a: string, b: string)
    ensures Digits(a + b) == Digits(a) + Digits(b)
  {
    if a == [] {
      assert a + b == b;
    } else {
      var c, t := a[0], a[1..];
      var head := if IsDigit(c) then [c] else [];
      assert a == [c] + t;
      assert a + b == [c] + (t + b);
      DigitsCons(c, t);
      DigitsCons(c, t + b);
      DigitsConcat(t, b);
      assert head + (Digits(t) + Digits(b)) == (head + Digits(t)) + Digits(b);
    }
  }

  lemma DigitsCons(c: char, t: string)
    ensures Digits([c] + t) == (if IsDigit(c) then [c] else []) + Digits(t)
  {
    assert ([c] + t)[0] == c;
    assert ([c] + t)[1..] == t;
  }

  lemma {:induction false} NonDigitsConcat(a: string, b: string)
    ensures NonDigits(a + b) == NonDigits(a) + NonDigits(b)
  {
    if a == [] {
      assert a + b == b;
    } else {
      assert (a + b)[0] == a[0];
      assert (a + b)[1..] == a[1..] + b;
      NonDigitsConcat(a[1..], b);
    }
  }

  lemma {:induction false} DigitsOfDigits(d: string)
    requires AllDigits(d)
    ensures Digits(d) == d && NonDigits(d) == []
  {
    if d != [] {
      DigitsOfDigits(d[1..]);
    }
  }

  lemma {:induction false} DigitsOfSeparator(sep: string)
    requires forall i :: 0 <= i < |sep| ==> !IsDigit(sep[i])
    ensures Digits(sep) == [] && NonDigits(sep) == sep
  {
    if sep != [] {
      DigitsOfSeparator(sep[1..]);
    }
  }

  /** Appending a separator and a digit group adds the group to the digits. */
  lemma ExtendDigits(x: string, sep: string, run: string)
    requires forall i :: 0 <= i < |sep| ==> !IsDigit(sep[i])
    requires AllDigits(run)
    ensures Digits(x + (sep + run)) == Digits(x) + run
  {
    assert Digits(sep + run) == run by {
      DigitsConcat(sep, run);
      DigitsOfSeparator(sep);
      DigitsOfDigits(run);
      assert [] + run == run;
    }
    DigitsConcat(x, sep + run);
  }

  /** Appending a separator and a digit group adds the separator to the rest. */
  lemma ExtendNonDigits(x: string, sep: string, run: string)
    requires forall i :: 0 <= i < |sep| ==> !IsDigit(sep[i])
    requires AllDigits(run)
    ensures NonDigits(x + (sep + run)) == NonDigits(x) + sep
  {
    assert NonDigits(sep + run) == sep by {
      NonDigitsConcat(sep, run);
      DigitsOfSeparator(sep);
      DigitsOfDigits(run);
      assert sep + [] == sep;
    }
    NonDigitsConcat(x, sep + run);
  }

  /** A string has no digits exactly when `Digits` removes everything. */
  lemma {:induction false} DigitsEmpty(s: string)
    ensures Digits(s) == [] <==> forall i :: 0 <= i < |s| ==> !IsDigit(s[i])
  {
    if s != [] {
      DigitsEmpty(s[1..]);
      assert forall i :: 1 <= i < |s| ==> s[i] == s[1..][i - 1];
    }
  }

  /** The digit group after each separator, empty when the group is not shown. */
  function Group(d: string, shown: bool, i: nat, j: nat): (r: string)
    requires i <= j && AllDigits(d)
    ensures AllDigits(r)
  {
    if shown then Slice(d, i, j) else ""
  }

  /** The separators `formatPhone` puts between the digit groups. */
  function Separators(n: nat): string {
    "+" + Sep1(n) + Sep2(n) + Sep3(n) + Sep4(n)
  }

  /** The separator before each digit group, empty when the group is not
      shown. */
  function Sep1(n: nat): string { if n > 1 then " (" else "" }
  function Sep2(n: nat): string { if n >= 5 then ") " else "" }
  function Sep3(n: nat): string { if n >= 8 then "-" else "" }
  function Sep4(n: nat): string { if n >= 10 then "-" else "" }

  /** `Layout` as the prefix `+d0` followed by four separator-and-group
      pieces. */
  lemma LayoutPieces(d: string)
    requires |d| > 0 && AllDigits(d)
    ensures Layout(d) == "+" + [d[0]]
      + (Sep1(|d|) + Group(d, |d| > 1, 1, 4)) + (Sep2(|d|) + Group(d, |d| >= 5, 4, 7))
      + (Sep3(|d|) + Group(d, |d| >= 8, 7, 9)) + (Sep4(|d|) + Group(d, |d| >= 10, 9, 11))
  {
  }

  lemma {:induction false} LayoutDigits(d: string)
    requires |d| > 0 && AllDigits(d)
    ensures Digits(Layout(d)) == [d[0]] + Group(d, |d| > 1, 1, 4) + Group(d, |d| >= 5, 4, 7)
                                 + Group(d, |d| >= 8, 7, 9) + Group(d, |d| >= 10, 9, 11)
  {
    var n := |d|;
    var g1, g2, g3, g4 := Group(d, n > 1, 1, 4), Group(d, n >= 5, 4, 7),
                          Group(d, n >= 8, 7, 9), Group(d, n >= 10, 9, 11);
    var x0 := "+" + [d[0]];
    var x1 := x0 + (Sep1(n) + g1);
    var x2 := x1 + (Sep2(n) + g2);
    var x3 := x2 + (Sep3(n) + g3);
    var x4 := x3 + (Sep4(n) + g4);
    assert Digits(x0) == [d[0]] by {
      ExtendDigits([], "+", [d[0]]);
      assert [] + x0 == x0;
    }
    assert Digits(x1) == [d[0]] + g1 by {
      ExtendDigits(x0, Sep1(n), g1);
    }
    assert Digits(x2) == [d[0]] + g1 + g2 by {
      ExtendDigits(x1, Sep2(n), g2);
    }
    assert Digits(x3) == [d[0]] + g1 + g2 + g3 by {
      ExtendDigits(x2, Sep3(n), g3);
    }
    assert Digits(x4) == [d[0]] + g1 + g2 + g3 + g4 by {
      ExtendDigits(x3, Sep4(n), g4);
    }
    assert Layout(d) == x4 by {
      LayoutPieces(d);
    }
  }

  lemma {:induction false} LayoutSeparators(d: string)
    requires |d| > 0 && AllDigits(d)
    ensures NonDigits(Layout(d)) == Separators(|d|)
  {
    var n := |d|;
    var g1, g2, g3, g4 := Group(d, n > 1, 1, 4), Group(d, n >= 5, 4, 7),
                          Group(d, n >= 8, 7, 9), Group(d, n >= 10, 9, 11);
    var x0 := "+" + [d[0]];
    var x1 := x0 + (Sep1(n) + g1);
    var x2 := x1 + (Sep2(n) + g2);
    var x3 := x2 + (Sep3(n) + g3);
    var x4 := x3 + (Sep4(n) + g4);
    assert NonDigits(x0) == "+" by {
      ExtendNonDigits([], "+", [d[0]]);
      assert [] + x0 == x0;
    }
    assert NonDigits(x1) == "+" + Sep1(n) by {
      ExtendNonDigits(x0, Sep1(n), g1);
    }
    assert NonDigits(x2) == "+" + Sep1(n) + Sep2(n) by {
      ExtendNonDigits(x1, Sep2(n), g2);
    }
    assert NonDigits(x3) == "+" + Sep1(n) + Sep2(n) + Sep3(n) by {
      ExtendNonDigits(x2, Sep3(n), g3);
    }
    assert NonDigits(x4) == "+" + Sep1(n) + Sep2(n) + Sep3(n) + Sep4(n) by {
      ExtendNonDigits(x3, Sep4(n), g4);
    }
    assert Layout(d) == x4 by {
      LayoutPieces(d);
    }
  }

  lemma GroupsTake(d: string)
    requires |d| > 0 && AllDigits(d)
    ensures [d[0]] + Group(d, |d| > 1, 1, 4) + Group(d, |d| >= 5, 4, 7)
            + Group(d, |d| >= 8, 7, 9) + Group(d, |d| >= 10, 9, 11) == Take(d, 11)
  {
    var n := |d|;
    var g1, g2, g3, g4 := Group(d, n > 1, 1, 4), Group(d, n >= 5, 4, 7),
                          Group(d, n >= 8, 7, 9), Group(d, n >= 10, 9, 11);
    assert [d[0]] == d[..1];
    if n == 1 {
      assert g1 == g2 == g3 == g4 == [];
    } else if n < 5 {
      assert g2 == g3 == g4 == [];
      Join(d, 1, n);
    } else if n < 8 {
      assert g3 == g4 == [];
      Join(d, 1, 4);
      Join(d, 4, n);
    } else if n < 10 {
      assert g4 == [];
      Join(d, 1, 4);
      Join(d, 4, 7);
      Join(d, 7, n);
    } else {
      var m := if n < 11 then n else 11;
      Join(d, 1, 4);
      Join(d, 4, 7);
      Join(d, 7, 9);
      Join(d, 9, m);
    }
  }

  /** A prefix followed by the next slice is the longer prefix. */
  lemma Join(d: string, i: nat, j: nat)
    requires i <= j <= |d|
    ensures d[..i] + d[i..j] == d[..j]
  {
  }

  /** The layout keeps the first eleven digits, in order, and puts the
      separators around them according to how many there are. */
  lemma {:induction false} LayoutParts(d: string)
    requires |d| > 0 && AllDigits(d)
    ensures Digits(Layout(d)) == Take(d, 11)
    ensures NonDigits(Layout(d)) == Separators(|d|)
  {
    LayoutDigits(d);
    LayoutSeparators(d);
    GroupsTake(d);
  }

  /** Digits past the eleventh do not show. */
  lemma LayoutTake(d: string)
    ensures Layout(Take(d, 11)) == Layout(d)
  {
    var t := Take(d, 11);
    if |d| > 11 {
      assert Slice(t, 1, 4) == Slice(d, 1, 4);
      assert Slice(t, 4, 7) == Slice(d, 4, 7);
      assert Slice(t, 7, 9) == Slice(d, 7, 9);
      assert Slice(t, 9, 11) == Slice(d, 9, 11);
    }
  }

  // ---------------------------------------------------------------------
  // Properties of formatPhone and validatePhone

  /** The field is emptied exactly when the input holds no digit. */
  lemma FormatPhoneEmpty(s: string)
    ensures FormatPhone(s) == "" <==> forall i :: 0 <= i < |s| ==> !IsDigit(s[i])
  {
    DigitsEmpty(s);
  }

  /** A non-empty result starts with `+7`. */
  lemma FormatPhoneStartsWithPlus7(s: string)
    requires FormatPhone(s) != ""
    ensures StartsWith(FormatPhone(s), "+7")
  {
    var n := Normalise(Digits(s));
    LayoutStart(n);
    assert FormatPhone(s)[..2] == "+7";
  }

  /** A non-empty layout opens with `+` and the first digit. */
  lemma LayoutStart(d: string)
    ensures d == [] <==> Layout(d) == []
    ensures d != [] ==> |Layout(d)| >= 2 && Layout(d)[0] == '+' && Layout(d)[1] == d[0]
  {
  }

  /** The digits shown are the first eleven normalised digits, and the
      separators depend only on how many digits were typed. */
  lemma FormatPhoneDigits(s: string)
    requires FormatPhone(s) != ""
    ensures Digits(FormatPhone(s)) == Take(Normalise(Digits(s)), 11)
    ensures NonDigits(FormatPhone(s)) == Separators(|Normalise(Digits(s))|)
  {
    LayoutParts(Normalise(Digits(s)));
  }

  /** Re-formatting the formatted field changes nothing, which is what lets
      the change handler format the field it has already formatted. */
  lemma {:induction false} FormatPhoneIdempotent(s: string)
    ensures FormatPhone(FormatPhone(s)) == FormatPhone(s)
  {
    var n := Normalise(Digits(s));
    if n == [] {
      assert FormatPhone(s) == "";
      assert Digits("") == [];
    } else {
      LayoutParts(n);
      var t := Take(n, 11);
      assert Digits(FormatPhone(s)) == t;
      assert t[0] == '7';
      assert Normalise(t) == t;
      LayoutTake(n);
    }
  }

  /** A formatted field passes validation exactly when at least eleven
      normalised digits were typed. */
  lemma {:induction false} FormattedPhoneValid(s: string)
    ensures ValidatePhone(FormatPhone(s)) <==> |Normalise(Digits(s))| >= 11
  {
    var n := Normalise(Digits(s));
    if n == [] {
      assert Digits("") == [];
    } else {
      LayoutParts(n);
    }
  }

  /** Submitting the formatted field: an order body is produced exactly when
      at least eleven normalised digits were typed, and its phone carries the
      first eleven of them. */
  lemma {:induction false} SubmitFormattedPhone(f: Flower, quantity: int, totalPrice: int, s: string)
    ensures SubmitPhone(f, quantity, totalPrice, FormatPhone(s)).Some? <==> |Normalise(Digits(s))| >= 11
    ensures SubmitPhone(f, quantity, totalPrice, FormatPhone(s)).Some? ==>
      Digits(SubmitPhone(f, quantity, totalPrice, FormatPhone(s)).value.phone) == Normalise(Digits(s))[..11]
  {
    FormattedPhoneValid(s);
    if |Normalise(Digits(s))| >= 11 {
      LayoutStart(Normalise(Digits(s)));
      FormatPhoneDigits(s);
    }
  }

  /** A number typed the usual Russian way. The two texts are passed in
      through parameters on purpose: as arguments they would make the verifier
      unfold the whole computation over them at every step of the proof. */
  lemma FormatExample(typed: string, shown: string)
    requires typed == "89161234567" && shown == "+7 (916) 123-45-67"
    ensures FormatPhone(typed) == shown
    ensures ValidatePhone(shown)
  {
    ExampleAllDigits(typed);
    LeadingEight(typed);
    var n := "79161234567";
    assert "7" + typed[1..] == n;
    LayoutExample(n);
    ExampleAllDigits(n);
    LayoutParts(n);
  }

  /** Digits typed with a leading 8 are read with a leading 7. */
  lemma LeadingEight(d: string)
    requires AllDigits(d) && |d| > 0 && d[0] == '8'
    ensures Normalise(Digits(d)) == "7" + d[1..]
  {
    DigitsOfDigits(d);
  }

  /** The example numbers are digits only (passed as a parameter, as in
      `FormatExample`). */
  lemma ExampleAllDigits(s: string)
    requires s == "89161234567" || s == "79161234567"
    ensures AllDigits(s)
  {
    forall i | 0 <= i < |s| ensures IsDigit(s[i]) { }
  }

  /** The layout of the normalised example (passed as a parameter, as in
      `FormatExample`). */
  lemma LayoutExample(d: string)
    requires d == "79161234567"
    ensures Layout(d) == "+7 (916) 123-45-67"
  {
    assert Slice(d, 1, 4) == "916";
    assert Slice(d, 4, 7) == "123";
    assert Slice(d, 7, 9) == "45";
    assert Slice(d, 9, 11) == "67";
  }
}

=== FILE: pricing.dfy ===
/** Pack pricing of the product page (src/pages/FlowerDetailPage.jsx).
    A customer pays the marked-up price for every ordered piece; the merchant
    buys whole packs, so the unused rest of the last pack is passed on at the
    supplier's cost. Money is exact: `real` arithmetic with `Math.ceil`. */
module Pricing {
  import opened Flowers

  /** `Math.ceil` */
  function Ceil(x: real): (r: int)
    ensures x <= r as real < x + 1.0
  {
    -((-x).Floor)
  }

  /** The marked-up price of one piece before rounding. */
  function UnitPrice(f: Flower): real {
    f.supplierPrice as real * (1.0 + f.markup)
  }

  /** `calculateTotalPrice`: the single-pack formula. */
  function TotalPrice(f: Flower, q: int): int {
    var leftover := if f.packSize - q > 0 then f.packSize - q else 0;
    var orderedWithMarkup := q as real * f.supplierPrice as real * (1.0 + f.markup);
    var leftoverCost := leftover as real * f.supplierPrice as real;
    Ceil(orderedWithMarkup + leftoverCost)
  }

  /** `calculateTotalPriceMultiPack`: whole packs with markup, then the
      remainder priced the single-pack way, one ceiling over the sum. */
  function TotalPriceMultiPack(f: Flower, q: int): int
    requires f.packSize >= 1 && q >= 0
  {
    var fullPacks := q / f.packSize;
    var remainingPieces := q % f.packSize;
    var fullPacksCost := fullPacks as real * f.packSize as real * f.supplierPrice as real * (1.0 + f.markup);
    if remainingPieces == 0 then Ceil(fullPacksCost)
    else
      var remainingLeftover := f.packSize - remainingPieces;
      var remainingCost := remainingPieces as real * f.supplierPrice as real * (1.0 + f.markup)
                           + remainingLeftover as real * f.supplierPrice as real;
      Ceil(fullPacksCost + remainingCost)
  }

  /** The total shown on the page and sent with the order: the single-pack
      formula up to one pack, the multi-pack formula beyond. */
  function OrderTotal(f: Flower, q: int): int
    requires f.packSize >= 1 && q >= 0
  {
    if q <= f.packSize then TotalPrice(f, q) else TotalPriceMultiPack(f, q)
  }

  /** `Math.ceil(n / q)` for a positive whole divisor: the least `r` with
      `r * q >= n`. */
  function CeilDiv(n: int, q: int): (r: int)
    requires q >= 1
    ensures r * q >= n
    ensures (r - 1) * q < n
  {
    var r := Ceil(n as real / q as real);
    DivBounds(n, r, q);
    r
  }

  /** `calculatePricePerPiece`: the order total spread over the pieces and
      rounded up, so the pieces together never cost less than the total and
      one unit less per piece would. */
  function PricePerPiece(f: Flower, q: int): (r: int)
    requires f.packSize >= 1 && q >= 1
    ensures r * q >= OrderTotal(f, q)
    ensures (r - 1) * q < OrderTotal(f, q)
  {
    CeilDiv(OrderTotal(f, q), q)
  }

  /** `packPrice`: the price of exactly one pack. */
  function PackPrice(f: Flower): int {
    TotalPrice(f, f.packSize)
  }

  /** `packPricePerPiece`: the per-piece price quoted by the "order a whole
      pack" hint. */
  function PackPricePerPiece(f: Flower): int
    requires f.packSize >= 1
  {
    CeilDiv(PackPrice(f), f.packSize)
  }

  /** `packOptions`: the quantities of the one-, two- and three-pack buttons. */
  function PackOptions(f: Flower): seq<int> {
    [f.packSize * 1, f.packSize * 2, f.packSize * 3]
  }

  // ---------------------------------------------------------------------
  // Arithmetic helpers

  lemma DivBounds(total: int, r: int, q: int)
    requires q >= 1
    requires r == Ceil(total as real / q as real)
    ensures r * q >= total && (r - 1) * q < total
  {
    DivUpper(total, r, q);
    DivLower(total, r - 1, q);
  }

  lemma DivUpper(total: int, r: int, q: int)
    requires q >= 1 && r as real >= total as real / q as real
    ensures r * q >= total
  {
    var x := total as real / q as real;
    assert x * q as real == total as real;
    MulMonoReal(x, r as real, q as real);
    MulInt(r, q);
  }

  lemma DivLower(total: int, r: int, q: int)
    requires q >= 1 && r as real < total as real / q as real
    ensures r * q < total
  {
    var x := total as real / q as real;
    assert x * q as real == total as real;
    MulStrictReal(r as real, x, q as real);
    MulInt(r, q);
  }

  lemma MulInt(a: int, b: int)
    ensures (a * b) as real == a as real * b as real
  {
  }

  lemma MulMonoReal(a: real, b: real, c: real)
    requires a <= b && c >= 0.0
    ensures a * c <= b * c
  {
  }

  lemma MulStrictReal(a: real, b: real, c: real)
    requires a < b && c > 0.0
    ensures a * c < b * c
  {
  }

  /** The ceiling is the least integer at or above its argument. */
  lemma CeilLeast(x: real, k: int)
    requires x <= k as real
    ensures Ceil(x) <= k
  {
  }

  lemma CeilMono(x: real, y: real)
    requires x <= y
    ensures Ceil(x) <= Ceil(y)
  {
    CeilLeast(x, Ceil(y));
  }

  /** `ceil(n / q) <= k` whenever `n <= k * q`. */
  lemma CeilDivLeast(n: int, q: int, k: int)
    requires q >= 1 && n <= k * q
    ensures CeilDiv(n, q) <= k
  {
    MulCancel(CeilDiv(n, q) - 1, k, q);
  }

  lemma MulCancel(a: int, b: int, q: int)
    requires q >= 1 && a * q < b * q
    ensures a < b
  {
  }

  /** `ceil(n / q) >= ceil(x)` whenever `n >= q * x`. */
  lemma CeilDivAtLeast(n: int, q: int, x: real)
    requires q >= 1 && n as real >= q as real * x
    ensures CeilDiv(n, q) >= Ceil(x)
  {
    var r := CeilDiv(n, q);
    MulInt(r, q);
    assert r as real * q as real >= q as real * x;
    if r as real < x {
      MulStrictReal(r as real, x, q as real);
      assert false;
    }
    CeilLeast(x, r);
  }

  // ---------------------------------------------------------------------
  // Properties of the formulas

  /** Once the order fills the pack there is no leftover to pay for. */
  lemma LeftoverVanishes(f: Flower, q: int)
    requires q >= f.packSize
    ensures TotalPrice(f, q) == Ceil(q as real * UnitPrice(f))
  {
  }

  /** Below one pack, the single-pack total is the marked-up price of the
      ordered pieces plus the supplier cost of the rest of the pack. */
  lemma SinglePackLeftover(f: Flower, q: int)
    requires q < f.packSize
    ensures TotalPrice(f, q)
         == Ceil(q as real * UnitPrice(f) + (f.packSize - q) as real * f.supplierPrice as real)
  {
  }

  /** An order of whole packs costs exactly the marked-up price of its pieces. */
  lemma {:induction false} MultiPackWholePacks(f: Flower, q: int)
    requires f.packSize >= 1 && q >= 0 && q % f.packSize == 0
    ensures TotalPriceMultiPack(f, q) == Ceil(q as real * UnitPrice(f))
  {
    var k := q / f.packSize;
    assert k * f.packSize == q;
    assert k as real * f.packSize as real == q as real;
  }

  /** A partial last pack is marked up on its pieces and charged the supplier
      cost for its unused places. */
  lemma {:induction false} MultiPackRemainder(f: Flower, q: int)
    requires f.packSize >= 1 && q >= 0 && q % f.packSize != 0
    ensures TotalPriceMultiPack(f, q)
         == Ceil(q as real * UnitPrice(f) + (f.packSize - q % f.packSize) as real * f.supplierPrice as real)
  {
    var k, r := q / f.packSize, q % f.packSize;
    var x := UnitPrice(f);
    assert k * f.packSize + r == q;
    assert k as real * f.packSize as real + r as real == q as real;
    var whole := k as real * f.packSize as real * f.supplierPrice as real * (1.0 + f.markup);
    assert whole == (k as real * f.packSize as real) * x;
    assert r as real * f.supplierPrice as real * (1.0 + f.markup) == r as real * x;
    assert whole + r as real * x == q as real * x;
  }

  /** Up to one pack both formulas give the same total, so the page's choice
      of formula never changes the price. */
  lemma {:induction false} FormulasAgree(f: Flower, q: int)
    requires 1 <= q <= f.packSize
    ensures TotalPrice(f, q) == TotalPriceMultiPack(f, q)
  {
    if q == f.packSize {
      assert q % f.packSize == 0;
      MultiPackWholePacks(f, q);
    } else {
      assert q / f.packSize == 0 && q % f.packSize == q;
      MultiPackRemainder(f, q);
      SinglePackLeftover(f, q);
    }
  }

  /** The example the shop's pricing is explained with: 350 per piece, packs
      of 25, 30% markup. */
  lemma RosesExample()
    ensures var f := Flower(1, "Rose", "Rosa", 350, 25, 0.30, "", "");
      && OrderTotal(f, 25) == 11375 && PricePerPiece(f, 25) == 455
      && OrderTotal(f, 10) == 9800 && PricePerPiece(f, 10) == 980
      && OrderTotal(f, 30) == 20650 && PricePerPiece(f, 30) == 689
  {
    var f := Flower(1, "Rose", "Rosa", 350, 25, 0.30, "", "");
    assert TotalPrice(f, 25) == 11375 by { CeilOfInt(11375); }
    assert TotalPrice(f, 10) == 9800 by { CeilOfInt(9800); }
    assert TotalPriceMultiPack(f, 30) == 20650 by {
      assert 30 / 25 == 1 && 30 % 25 == 5;
      CeilOfInt(20650);
    }
    CeilOfInt(455);
    CeilOfInt(980);
    assert 20650.0 / 30.0 == 688.0 + 1.0 / 3.0;
  }

  lemma CeilOfInt(k: int)
    ensures Ceil(k as real) == k
  {
  }

  /** Every total is at least the marked-up price of the ordered pieces. */
  lemma {:induction false} OrderTotalCoversUnitPrice(f: Flower, q: int)
    requires f.packSize >= 1 && q >= 0
    requires f.supplierPrice >= 0 && f.markup >= 0.0
    ensures OrderTotal(f, q) as real >= q as real * UnitPrice(f)
  {
    var extra := if q <= f.packSize then f.packSize - q else f.packSize - q % f.packSize;
    assert extra >= 0;
    MulMonoReal(0.0, extra as real, f.supplierPrice as real);
    if q <= f.packSize {
      if q < f.packSize { SinglePackLeftover(f, q); } else { LeftoverVanishes(f, q); }
    } else if q % f.packSize == 0 {
      MultiPackWholePacks(f, q);
    } else {
      MultiPackRemainder(f, q);
    }
  }

  /** An order of whole packs is charged exactly the marked-up price. */
  lemma {:induction false} OrderTotalAtWholePacks(f: Flower, q: int)
    requires f.packSize >= 1 && q >= 1 && q % f.packSize == 0
    ensures OrderTotal(f, q) == Ceil(q as real * UnitPrice(f))
  {
    if q <= f.packSize {
      LeftoverVanishes(f, q);
    } else {
      MultiPackWholePacks(f, q);
    }
  }

  /** Per piece, no order is cheaper than the rounded-up marked-up price. */
  lemma {:induction false} PricePerPieceAtLeastUnit(f: Flower, q: int)
    requires f.packSize >= 1 && q >= 1
    requires f.supplierPrice >= 0 && f.markup >= 0.0
    ensures PricePerPiece(f, q) >= Ceil(UnitPrice(f))
  {
    OrderTotalCoversUnitPrice(f, q);
    CeilDivAtLeast(OrderTotal(f, q), q, UnitPrice(f));
  }

  /** Whole packs are sold at exactly the rounded-up marked-up price. */
  lemma {:induction false} PricePerPieceAtWholePacks(f: Flower, q: int)
    requires f.packSize >= 1 && q >= 1 && q % f.packSize == 0
    ensures PricePerPiece(f, q) == Ceil(UnitPrice(f))
  {
    OrderTotalAtWholePacks(f, q);
    PerPieceOfExactTotal(f, q);
  }

  /** A total charged at exactly the marked-up price is exactly the rounded-up
      marked-up price per piece. */
  lemma PerPieceOfExactTotal(f: Flower, q: int)
    requires f.packSize >= 1 && q >= 1
    requires OrderTotal(f, q) == Ceil(q as real * UnitPrice(f))
    ensures PricePerPiece(f, q) == Ceil(UnitPrice(f))
  {
    CeilOfCeilDiv(UnitPrice(f), q);
  }

  /** Rounding `q` pieces at `x` up and spreading the result back over the
      pieces, rounded up again, gives `ceil(x)`. */
  lemma CeilOfCeilDiv(x: real, q: int)
    requires q >= 1
    ensures CeilDiv(Ceil(q as real * x), q) == Ceil(x)
  {
    var t := Ceil(q as real * x);
    CeilTimesBound(x, q);
    CeilDivLeast(t, q, Ceil(x));
    CeilDivAtLeast(t, q, x);
  }

  /** `q` pieces at `x` round up to no more than `q` pieces at `ceil(x)`. */
  lemma CeilTimesBound(x: real, q: int)
    requires q >= 1
    ensures Ceil(q as real * x) <= Ceil(x) * q
  {
    var c := Ceil(x);
    MulMonoReal(x, c as real, q as real);
    assert (c * q) as real == c as real * q as real;
    assert q as real * x == x * q as real;
    CeilLeast(q as real * x, c * q);
  }

  /** The hint's per-piece price is the marked-up price rounded up. */
  lemma {:induction false} PackPricePerPieceIsUnitCeil(f: Flower)
    requires f.packSize >= 1
    ensures PackPricePerPiece(f) == Ceil(UnitPrice(f))
  {
    PricePerPieceAtWholePacks(f, f.packSize);
  }

  /** Adding a piece to an order that does not fill its last pack never raises
      the price per piece: the extra piece only takes the place of a leftover
      one, which was already paid for at the supplier's price. */
  lemma {:induction false} PricePerPieceNonIncreasing(f: Flower, q: int)
    requires f.packSize >= 1 && f.supplierPrice >= 0 && f.markup >= 0.0
    requires q >= 1 && q % f.packSize != 0
    ensures PricePerPiece(f, q + 1) <= PricePerPiece(f, q)
  {
    PricePerPieceAtLeastUnit(f, q);
    if (q + 1) % f.packSize == 0 {
      PricePerPieceAtWholePacks(f, q + 1);
    } else {
      ModSucc(q, f.packSize);
      var a, d := LeftoverStep(f, q);
      PerPieceStep(OrderTotal(f, q), OrderTotal(f, q + 1), a, d, PricePerPiece(f, q), q);
    }
  }

  /** Within a pack, one more piece adds its markup to the cost before
      rounding: the order costs `Ceil(a)` and the next one `Ceil(a + d)`. */
  lemma {:induction false} LeftoverStep(f: Flower, q: int) returns (a: real, d: real)
    requires f.packSize >= 1 && f.supplierPrice >= 0 && f.markup >= 0.0
    requires q >= 1 && q % f.packSize != 0 && (q + 1) % f.packSize == q % f.packSize + 1
    ensures a <= OrderTotal(f, q) as real && OrderTotal(f, q + 1) == Ceil(a + d)
    ensures 0.0 <= d <= UnitPrice(f)
  {
    var r := q % f.packSize;
    a := q as real * UnitPrice(f) + (f.packSize - r) as real * f.supplierPrice as real;
    d := f.supplierPrice as real * f.markup;
    OrderTotalWithRemainder(f, q);
    NextOrderTotal(f, q, r);
    MarkupWithinUnit(f.supplierPrice as real, f.markup);
  }

  lemma {:induction false} NextOrderTotal(f: Flower, q: int, r: int)
    requires f.packSize >= 1 && q >= 1 && (q + 1) % f.packSize != 0 && (q + 1) % f.packSize == r + 1
    ensures OrderTotal(f, q + 1)
         == Ceil(q as real * UnitPrice(f) + (f.packSize - r) as real * f.supplierPrice as real
                 + f.supplierPrice as real * f.markup)
  {
    OrderTotalWithRemainder(f, q + 1);
    NextPieceCost(q, f.packSize - r, UnitPrice(f), f.supplierPrice as real, f.markup);
  }

  lemma MarkupWithinUnit(sp: real, m: real)
    requires sp >= 0.0 && m >= 0.0
    ensures 0.0 <= sp * m <= sp * (1.0 + m)
  {
    MulMonoReal(0.0, m, sp);
    assert sp * (1.0 + m) == sp + sp * m;
  }

  /** The arithmetic of one step: a per-piece price that covers an order and
      the extra cost of one more piece still covers the larger order. */
  lemma PerPieceStep(t0: int, t1: int, a: real, d: real, p: int, q: int)
    requires q >= 1 && a <= t0 as real && t0 <= p * q && d <= p as real && t1 == Ceil(a + d)
    ensures CeilDiv(t1, q + 1) <= p
  {
    StepBound(a, d, t0, p, q);
    CeilDivLeast(t1, q + 1, p);
  }

  /** Below a whole number of packs, one formula covers both branches of
      `calculateTotalPriceMultiPack`'s caller. */
  lemma {:induction false} OrderTotalWithRemainder(f: Flower, q: int)
    requires f.packSize >= 1 && q >= 1 && q % f.packSize != 0
    ensures OrderTotal(f, q)
         == Ceil(q as real * UnitPrice(f) + (f.packSize - q % f.packSize) as real * f.supplierPrice as real)
  {
    if q < f.packSize {
      assert q / f.packSize == 0 && q % f.packSize == q;
      SinglePackLeftover(f, q);
    } else {
      MultiPackRemainder(f, q);
    }
  }

  lemma ModSucc(q: int, n: int)
    requires n >= 1 && q >= 0 && (q + 1) % n != 0
    ensures (q + 1) % n == q % n + 1
  {
    var k, r := q / n, q % n;
    var k2, r2 := (q + 1) / n, (q + 1) % n;
    assert n * (k2 - k) == r - r2 + 1;
    if k2 - k >= 1 {
      MulAtLeast(n, k2 - k);
    } else if k - k2 >= 1 {
      MulAtLeast(n, k - k2);
    }
  }

  /** The cost of one more piece when one leftover piece remains. */
  lemma NextPieceCost(q: int, left: int, u: real, sp: real, m: real)
    requires u == sp * (1.0 + m)
    ensures (q + 1) as real * u + (left - 1) as real * sp
         == q as real * u + left as real * sp + sp * m
  {
  }

  lemma StepBound(a: real, d: real, total: int, p: int, q: int)
    requires q >= 1 && a <= total as real && total <= p * q && d <= p as real
    ensures Ceil(a + d) <= p * (q + 1)
  {
    MulInt(p, q);
    MulInt(p, q + 1);
    assert p * (q + 1) == p * q + p;
    CeilLeast(a + d, p * (q + 1));
  }

  /** The "order a whole pack" hint, shown below one pack, never recommends a
      worse deal: the pack costs at least as much in total and no more per
      piece. */
  lemma {:induction false} HintNeverWorse(f: Flower, q: int)
    requires 1 <= q < f.packSize
    requires f.supplierPrice >= 0 && f.markup >= 0.0
    ensures TotalPrice(f, q) <= TotalPrice(f, f.packSize)
    ensures PackPricePerPiece(f) <= PricePerPiece(f, q)
  {
    PackTotalNotLower(f, q);
    PackPricePerPieceIsUnitCeil(f);
    PricePerPieceAtLeastUnit(f, q);
  }

  lemma {:induction false} PackTotalNotLower(f: Flower, q: int)
    requires 1 <= q < f.packSize
    requires f.supplierPrice >= 0 && f.markup >= 0.0
    ensures TotalPrice(f, q) <= TotalPrice(f, f.packSize)
  {
    var x := UnitPrice(f);
    var rest := (f.packSize - q) as real;
    var cost := rest * f.supplierPrice as real;
    SinglePackLeftover(f, q);
    LeftoverVanishes(f, f.packSize);
    LeftoverCheaperThanMarkup(f, rest);
    Distribute(q as real, rest, x);
    assert q as real + rest == f.packSize as real;
    CeilMono(q as real * x + cost, f.packSize as real * x);
  }

  lemma Distribute(a: real, b: real, x: real)
    ensures (a + b) * x == a * x + b * x
  {
  }

  /** Charging leftover places at cost is never dearer than selling them. */
  lemma LeftoverCheaperThanMarkup(f: Flower, rest: real)
    requires rest >= 0.0 && f.supplierPrice >= 0 && f.markup >= 0.0
    ensures rest * f.supplierPrice as real <= rest * UnitPrice(f)
  {
    var c := rest * f.supplierPrice as real;
    MulMonoReal(0.0, c, f.markup);
    assert rest * UnitPrice(f) == c + c * f.markup;
  }

  lemma MultipleOfPack(k: int, packSize: int)
    requires k >= 1 && packSize >= 1
    ensures (k * packSize) % packSize == 0 && k * packSize >= 1
  {
    var x := k * packSize;
    var d, m := x / packSize, x % packSize;
    assert packSize * d + m == packSize * k;
    assert packSize * (k - d) == m;
    if k - d >= 1 {
      MulAtLeast(packSize, k - d);
    } else if k - d <= -1 {
      MulAtLeast(packSize, d - k);
    }
    assert k * packSize >= packSize by {
      MulAtLeast(packSize, k);
    }
  }

  lemma MulAtLeast(a: int, b: int)
    requires a >= 1 && b >= 1
    ensures a * b >= a
  {
  }

  /** The one-, two- and three-pack buttons all sell at the rounded-up
      marked-up price per piece. */
  lemma {:induction false} PackOptionsAtUnitPrice(f: Flower, i: int)
    requires f.packSize >= 1 && f.supplierPrice >= 0 && f.markup >= 0.0
    requires 0 <= i < 3
    ensures PackOptions(f)[i] == (i + 1) * f.packSize
    ensures PricePerPiece(f, PackOptions(f)[i]) == Ceil(UnitPrice(f))
  {
    var q := PackOptions(f)[i];
    assert q == (i + 1) * f.packSize;
    MultipleOfPack(i + 1, f.packSize);
    PricePerPieceAtWholePacks(f, q);
  }
}

=== FILE: quantity_control.dfy ===
/** The quantity controller of the product page
    (src/pages/FlowerDetailPage.jsx): a free-text quantity field, an "invalid"
    flag, the -/+ buttons, the pack buttons and the order button. The smallest
    order is `MinQuantity` pieces. */
module QuantityControl {
  import opened JsText
  import opened Flowers
  import opened Pricing

  const MinQuantity: int := 10

  /** `validateQuantity`: the text reads (as `parseInt` reads it) as at least
      the minimum. The explicit test for the empty text is redundant. */
  function ValidateQuantity(value: string): (ok: bool)
    ensures value == "" ==> !ok
    ensures ok <==> ParseInt(value).Some? && ParseInt(value).value >= MinQuantity
  {
    if value == "" then false
    else
      var n := ParseInt(value);
      n.Some? && n.value >= MinQuantity
  }

  /** `getValidQuantity`: the quantity the page prices and orders. */
  function GetValidQuantity(quantity: string): (n: int)
    ensures n >= MinQuantity
    ensures ValidateQuantity(quantity) ==> ParseInt(quantity) == Some(n)
    ensures !ValidateQuantity(quantity) ==> n == MinQuantity
  {
    if quantity == "" then MinQuantity
    else
      var num := ParseInt(quantity);
      if num.Some? && num.value >= MinQuantity then num.value else MinQuantity
  }

  /** The flag `handleInputChange` sets: a non-empty text that is not all
      digits, or whose value is below the minimum. (`NaN < 10` is false in
      JavaScript, hence the `None` case.) */
  function InputFlagsInvalid(value: string): (invalid: bool)
    ensures invalid <==> value != "" && !(AllDigits(value) && DigitsValue(value) >= MinQuantity)
  {
    if value == "" then false
    else if AllDigits(value) then
      assert value + [] == value;
      ParseIntDigitRun(value, []);
      match ParseInt(value)
      case Some(n) => n < MinQuantity
      case None => false
    else true
  }

  /** Whether the "order a whole pack" hint is shown. */
  function HintShown(f: Flower, quantity: string, isInvalid: bool): bool {
    GetValidQuantity(quantity) < f.packSize && !isInvalid && quantity != ""
  }

  /** The field's own check is stricter than `validateQuantity`: text it does
      not flag is a valid quantity. */
  lemma {:induction false} UnflaggedInputIsValid(value: string)
    requires value != "" && !InputFlagsInvalid(value)
    ensures ValidateQuantity(value)
    ensures GetValidQuantity(value) == DigitsValue(value)
  {
    assert value + [] == value;
    ParseIntDigitRun(value, []);
  }

  /** The converse fails: `parseInt` reads a prefix, so "12abc" is flagged by
      the field yet accepted by `validateQuantity` and priced as 12. Blurring
      the field therefore does not clear the flag, and the order button stays
      disabled while the page prices 12 pieces. */
  lemma PrefixInputFlaggedButValid()
    ensures InputFlagsInvalid("12abc")
    ensures ValidateQuantity("12abc") && GetValidQuantity("12abc") == 12
  {
    assert "12abc" == "12" + "abc";
    assert DigitsValue("12") == 12 by {
      assert "12"[..1] == "1";
    }
    ParseIntDigitRun("12", "abc");
  }

  /** When the hint is shown for a product the catalog bot could have entered,
      following it is a good deal. */
  lemma {:induction false} ShownHintIsGoodDeal(f: Flower, quantity: string, isInvalid: bool)
    requires f.supplierPrice >= 0 && f.markup >= 0.0
    requires HintShown(f, quantity, isInvalid)
    ensures f.packSize >= 1
    ensures PackPricePerPiece(f) <= PricePerPiece(f, GetValidQuantity(quantity))
    ensures OrderTotal(f, GetValidQuantity(quantity)) <= PackPrice(f)
  {
    HintNeverWorse(f, GetValidQuantity(quantity));
  }

  /** After typing, the order button opens the popup exactly when the typed
      text is all digits and reads as at least the minimum. */
  lemma {:induction false} TypedOrderOpens(value: string)
    ensures !InputFlagsInvalid(value) && ValidateQuantity(value)
        <==> value != "" && AllDigits(value) && DigitsValue(value) >= MinQuantity
  {
    if value != "" && AllDigits(value) && DigitsValue(value) >= MinQuantity {
      UnflaggedInputIsValid(value);
    }
  }

  function Max(a: int, b: int): int {
    if a >= b then a else b
  }

  /** The text of a quantity reads back as that quantity. */
  lemma {:induction false} QuantityText(n: int)
    ensures GetValidQuantity(IntToString(n)) == if n >= MinQuantity then n else MinQuantity
    ensures ValidateQuantity(IntToString(n)) <==> n >= MinQuantity
  {
    ParseIntToString(n);
  }

  lemma MinQuantityText()
    ensures IntToString(MinQuantity) == "10"
  {
    assert NatToString(1) == "1";
  }

  /** The text `increaseQuantity` puts in the field: one more than the
      quantity the old text stands for. */
  method IncreasedText(previous: string) returns (text: string)
    ensures GetValidQuantity(text) == GetValidQuantity(previous) + 1
    ensures text == IntToString(GetValidQuantity(text))
    ensures ValidateQuantity(text)
  {
    var newValue := GetValidQuantity(previous) + 1;
    QuantityText(newValue);
    text := IntToString(newValue);
  }

  /** The controller state of one product page. */
  class QuantityController {
    var quantity: string
    var isInvalid: bool

    constructor ()
      ensures quantity == "10" && !isInvalid
    {
      MinQuantityText();
      quantity := IntToString(MinQuantity);
      isInvalid := false;
    }

    /** A click on the minus button: disabled at or below the minimum, so the
        click changes nothing there; otherwise `decreaseQuantity` sets the
        field to one less than the quantity in effect. */
    method Decrease()
      modifies this
      ensures var before := old(GetValidQuantity(quantity));
        before <= MinQuantity ==> quantity == old(quantity) && isInvalid == old(isInvalid)
      ensures var before := old(GetValidQuantity(quantity));
        before > MinQuantity ==>
          && GetValidQuantity(quantity) == before - 1
          && quantity == IntToString(GetValidQuantity(quantity))
          && ValidateQuantity(quantity) && !isInvalid
    {
      var validQuantity := GetValidQuantity(quantity);
      if validQuantity <= MinQuantity {
        return;
      }
      var newValue := Max(MinQuantity, validQuantity - 1);
      var text := IntToString(newValue);
      QuantityText(newValue);
      assert GetValidQuantity(text) == newValue && ValidateQuantity(text);
      quantity := text;
      isInvalid := false;
    }

    /** `increaseQuantity`: one more than the quantity in effect. */
    method Increase()
      modifies this
      ensures GetValidQuantity(quantity) == old(GetValidQuantity(quantity)) + 1
      ensures quantity == IntToString(GetValidQuantity(quantity))
      ensures ValidateQuantity(quantity) && !isInvalid
    {
      var text := IncreasedText(quantity);
      quantity := text;
      isInvalid := false;
    }

    /** `handleInputChange`: keep the typed text, flag it as the field sees it. */
    method HandleInputChange(value: string)
      modifies this
      ensures quantity == value && isInvalid == InputFlagsInvalid(value)
    {
      quantity := value;
      if value == "" {
        isInvalid := false;
        return;
      }
      if AllDigits(value) {
        assert value + [] == value;
        ParseIntDigitRun(value, []);
        isInvalid := ParseInt(value).value < MinQuantity;
      } else {
        isInvalid := true;
      }
    }

    /** `handleBlur`: text that `validateQuantity` rejects is reset to the
        minimum; accepted text stays as it is. */
    method HandleBlur()
      modifies this
      ensures ValidateQuantity(quantity)
      ensures old(ValidateQuantity(quantity)) ==> quantity == old(quantity) && isInvalid == old(isInvalid)
      ensures !old(ValidateQuantity(quantity)) ==> quantity == "10" && !isInvalid
    {
      if quantity == "" || !ValidateQuantity(quantity) {
        MinQuantityText();
        QuantityText(MinQuantity);
        quantity := IntToString(MinQuantity);
        isInvalid := false;
      }
    }

    /** A pack button or the hint's button: set the field to a given quantity
        and clear the flag. */
    method ChooseQuantity(n: int)
      modifies this
      ensures quantity == IntToString(n) && !isInvalid
      ensures GetValidQuantity(quantity) == if n >= MinQuantity then n else MinQuantity
    {
      QuantityText(n);
      quantity := IntToString(n);
      isInvalid := false;
    }

    /** A click on the order button: disabled while the field is flagged;
        otherwise `handleOrder` opens the popup only for a valid quantity,
        and then the quantity ordered is the number the field reads as. */
    method HandleOrder() returns (showPopup: bool)
      ensures showPopup <==> !isInvalid && ValidateQuantity(quantity)
      ensures showPopup ==> ParseInt(quantity) == Some(GetValidQuantity(quantity))
    {
      if isInvalid {
        return false;
      }
      showPopup := ValidateQuantity(quantity);
    }
  }
}

=== FILE: server.dfy ===
/** The back end (server.js): the operator's catalog bot and the guard of the
    order endpoint. The catalog file is the `flowers` field of the bot; the
    per-chat dialogue sessions are its `sessions` field. */
module Server {
  import opened JsText
  import opened Flowers

  /** The fields the dialogue asks for, in order. */
  const STEPS: seq<string> := ["name", "latin", "supplierPrice", "packSize", "markup", "image", "description"]

  /** The picture stored when the operator skips the image step. */
  const DEFAULT_IMAGE: string := "https://images.unsplash.com/photo-1518895949257-7621c3c786d7?w=400"

  /** The answer that skips the image step ("skip"), compared lower-cased. */
  const SKIP_WORD: string := "пропустить"

  /** A value collected by the dialogue. */
  datatype FieldValue = Text(text: string) | Count(count: int) | Fraction(fraction: real)

  /** `{ step, data }`: the index of the field being asked for and the fields
      collected so far. */
  datatype Session = Session(step: nat, data: map<string, FieldValue>)

  /** What the bot sends back, without the wording. `Prompt(k)` asks for
      `STEPS[k]`. */
  datatype Reply =
    | AccessDenied
    | Prompt(step: nat)
    | Cancelled
    | Listing(entries: seq<(int, string)>)
    | NotFound(id: int)
    | Deleted(name: string)
    | BadInteger
    | BadNumber
    | Added(flower: Flower)

  /** The outcome of checking one answer. */
  datatype Checked = Accept(value: FieldValue) | Reject(complaint: Reply)

  /** What an accepted value of each field looks like. */
  predicate FieldOk(field: string, v: FieldValue) {
    if field == "supplierPrice" || field == "packSize" then v.Count? && v.count > 0
    else if field == "markup" then v.Fraction? && v.fraction >= 0.0
    else v.Text?
  }

  /** The verdict on a price or pack size as `parseInt` read it: a positive
      integer is kept, anything else (NaN included) is refused. */
  function CountVerdict(num: Option<int>): (c: Checked)
    ensures c.Accept? <==> num.Some? && num.value > 0
    ensures c.Accept? ==> c.value == Count(num.value)
    ensures c.Reject? ==> c.complaint == BadInteger
  {
    if num.None? || num.value <= 0 then Reject(BadInteger) else Accept(Count(num.value))
  }

  /** The verdict on a markup as `parseFloat` read it: a non-negative number
      is a percentage, kept as a fraction; anything else is refused. */
  function MarkupVerdict(num: Option<real>): (c: Checked)
    ensures c.Accept? <==> num.Some? && num.value >= 0.0
    ensures c.Accept? ==> c.value == Fraction(num.value / 100.0) && c.value.fraction >= 0.0
    ensures c.Reject? ==> c.complaint == BadNumber
  {
    if num.None? || num.value < 0.0 then Reject(BadNumber) else Accept(Fraction(num.value / 100.0))
  }

  /** Checks and converts the trimmed answer for `field`: prices and pack
      sizes must be positive integers, the markup a non-negative number; the
      image step maps the skip word, in any case, to the default picture;
      other text is taken as it is. */
  function CheckField(field: string, value: string): (c: Checked)
    ensures c.Accept? ==> FieldOk(field, c.value)
    ensures field == "supplierPrice" || field == "packSize" ==> c == CountVerdict(ParseInt(value))
    ensures field == "markup" ==> c == MarkupVerdict(ParseFloat(value))
    ensures field == "image" ==> c == Accept(Text(if Lower(value) == SKIP_WORD then DEFAULT_IMAGE else value))
    ensures field in {"name", "latin", "description"} ==> c == Accept(Text(value))
  {
    if field == "supplierPrice" || field == "packSize" then CountVerdict(ParseInt(value))
    else if field == "markup" then MarkupVerdict(ParseFloat(value))
    else if field == "image" && Lower(value) == SKIP_WORD then Accept(Text(DEFAULT_IMAGE))
    else Accept(Text(value))
  }

  /** The fields collected before step `n`. */
  function StepKeys(n: nat): set<string> {
    set i | 0 <= i < n && i < |STEPS| :: STEPS[i]
  }

  /** A session in progress: it asks for one of the seven fields and holds
      exactly the fields before it, each of the right kind. */
  predicate SessionOk(s: Session) {
    && s.step < |STEPS|
    && s.data.Keys == StepKeys(s.step)
    && forall k :: k in s.data ==> FieldOk(k, s.data[k])
  }

  lemma StepKeysNext(n: nat)
    requires n < |STEPS|
    ensures StepKeys(n + 1) == StepKeys(n) + {STEPS[n]}
  {
  }

  /** `{ id: newId, ...state.data }` for a completed dialogue. A product entered
      this way always has a positive price and pack size and a non-negative
      markup. */
  function BuildFlower(id: int, data: map<string, FieldValue>): (f: Flower)
    requires data.Keys == StepKeys(|STEPS|)
    requires forall k :: k in data ==> FieldOk(k, data[k])
    ensures f.id == id
    ensures f.supplierPrice > 0 && f.packSize > 0 && f.markup >= 0.0
  {
    assert STEPS[0] in data && STEPS[1] in data && STEPS[2] in data && STEPS[3] in data;
    assert STEPS[4] in data && STEPS[5] in data && STEPS[6] in data;
    assert FieldOk("supplierPrice", data["supplierPrice"]);
    assert FieldOk("packSize", data["packSize"]);
    assert FieldOk("markup", data["markup"]);
    assert FieldOk("name", data["name"]) && FieldOk("latin", data["latin"]);
    assert FieldOk("image", data["image"]) && FieldOk("description", data["description"]);
    Flower(id,
           data["name"].text,
           data["latin"].text,
           data["supplierPrice"].count,
           data["packSize"].count,
           data["markup"].fraction,
           data["image"].text,
           data["description"].text)
  }

  /** The largest id in a non-empty catalog. */
  function MaxId(flowers: seq<Flower>): (m: int)
    requires flowers != []
    ensures forall i :: 0 <= i < |flowers| ==> flowers[i].id <= m
    ensures exists i :: 0 <= i < |flowers| && flowers[i].id == m
  {
    if |flowers| == 1 then flowers[0].id
    else
      var rest := MaxId(flowers[1..]);
      assert forall i :: 1 <= i < |flowers| ==> flowers[i] == flowers[1..][i - 1];
      if flowers[0].id >= rest then flowers[0].id else rest
  }

  /** The id of a new product: one more than the largest id, 1 for an empty
      catalog. It differs from every id in the catalog. */
  function NextId(flowers: seq<Flower>): (id: int)
    ensures forall i :: 0 <= i < |flowers| ==> flowers[i].id < id
    ensures flowers == [] ==> id == 1
    ensures flowers != [] ==> exists i :: 0 <= i < |flowers| && flowers[i].id == id - 1
  {
    if |flowers| > 0 then MaxId(flowers) + 1 else 1
  }

  predicate HasId(flowers: seq<Flower>, id: int) {
    exists i :: 0 <= i < |flowers| && flowers[i].id == id
  }

  /** No two products share an id. */
  predicate UniqueIds(flowers: seq<Flower>) {
    forall i, j :: 0 <= i < j < |flowers| ==> flowers[i].id != flowers[j].id
  }

  /** `flowers.map(f => [f.id, f.name])`, the content of `/listflowers`. */
  function Listed(flowers: seq<Flower>): (entries: seq<(int, string)>)
    ensures |entries| == |flowers|
    ensures forall i :: 0 <= i < |flowers| ==> entries[i] == (flowers[i].id, flowers[i].name)
  {
    seq(|flowers|, i requires 0 <= i < |flowers| => (flowers[i].id, flowers[i].name))
  }

  /** Messages the dialogue does not treat as an answer: from a chat without a
      session, without text, or commands. */
  predicate Ignored(sessions: map<string, Session>, chat: string, text: Option<string>) {
    chat !in sessions || text.None? || text.value == "" || StartsWith(text.value, "/")
  }

  /** `parseInt(match[1])` on the digits captured by the `/delete` command. */
  method ReadId(idText: string) returns (id: int)
    requires idText != [] && AllDigits(idText)
    ensures id == DigitsValue(idText)
  {
    assert idText + [] == idText;
    ParseIntDigitRun(idText, []);
    id := ParseInt(idText).value;
  }

  /** `flowers.findIndex(f => f.id === id)` */
  method FindIndex(flowers: seq<Flower>, id: int) returns (index: int)
    ensures -1 <= index < |flowers|
    ensures index == -1 <==> !HasId(flowers, id)
    ensures index >= 0 ==> flowers[index].id == id
    ensures forall j :: 0 <= j < index ==> flowers[j].id != id
  {
    index := 0;
    while index < |flowers|
      invariant 0 <= index <= |flowers|
      invariant forall j :: 0 <= j < index ==> flowers[j].id != id
    {
      if flowers[index].id == id {
        return;
      }
      index := index + 1;
    }
    index := -1;
  }

  /** A fresh id keeps the ids unique. */
  lemma {:induction false} AppendNewKeepsUnique(flowers: seq<Flower>, f: Flower)
    requires UniqueIds(flowers) && f.id == NextId(flowers)
    ensures UniqueIds(flowers + [f])
  {
    var all := flowers + [f];
    forall i, j | 0 <= i < j < |all| ensures all[i].id != all[j].id {
      if j == |flowers| {
        assert all[i] == flowers[i];
      } else {
        assert all[i] == flowers[i] && all[j] == flowers[j];
      }
    }
  }

  /** Removing a product keeps the ids unique. */
  lemma {:induction false} RemoveKeepsUnique(flowers: seq<Flower>, k: int)
    requires UniqueIds(flowers) && 0 <= k < |flowers|
    ensures UniqueIds(flowers[..k] + flowers[k + 1..])
  {
    var rest := flowers[..k] + flowers[k + 1..];
    forall i, j | 0 <= i < j < |rest| ensures rest[i].id != rest[j].id {
      var i' := if i < k then i else i + 1;
      var j' := if j < k then j else j + 1;
      assert rest[i] == flowers[i'] && rest[j] == flowers[j'];
    }
  }

  /** The catalog of the example: ids 1 and 3 give the next id 4. */
  lemma NextIdExample(a: Flower, b: Flower)
    requires a.id == 1 && b.id == 3
    ensures NextId([a, b]) == 4
    ensures NextId([]) == 1
  {
    assert [a, b][1..] == [b];
  }

  /** A pack size of 25 is taken as it is. */
  lemma PackSizeExample()
    ensures CheckField("packSize", "25") == Accept(Count(25))
  {
    TwoDigits('2', '5');
    ParseIntDigitRun("25", []);
    assert "25" + [] == "25";
  }

  /** Text that is not a number is refused. */
  lemma NotANumberExample()
    ensures CheckField("packSize", "abc") == Reject(BadInteger)
  {
    var t := "abc";
    assert !IsDigit(t[0]) && !IsSpace(t[0]);
    assert DigitPrefix(t) == [];
    assert ParseInt(t) == None;
    assert CountVerdict(ParseInt(t)) == Reject(BadInteger);
  }

  /** A price of zero is refused. */
  lemma ZeroPriceExample()
    ensures CheckField("supplierPrice", "0") == Reject(BadInteger)
  {
    var t := "0";
    assert DigitsValue(t) == 0 by {
      assert t[..0] == [];
    }
    ParseIntDigitRun(t, []);
    assert t + [] == t;
    assert CountVerdict(ParseInt(t)) == Reject(BadInteger);
  }

  /** A markup of 30 (percent) is stored as 0.3. */
  lemma MarkupExample()
    ensures CheckField("markup", "30") == Accept(Fraction(0.3))
  {
    TwoDigits('3', '0');
    ParseFloatDigits("30");
  }

  /** The skip word is recognised whatever its case. */
  lemma SkipImageExample()
    ensures CheckField("image", "ПРОПУСТИТЬ") == Accept(Text(DEFAULT_IMAGE))
  {
    assert Lower("ПРОПУСТИТЬ") == SKIP_WORD;
  }

  /** A markup with a fraction: 12.5 percent is stored as 0.125. The text is
      passed in through a parameter on purpose: as an argument it would make
      the verifier unfold the whole computation over it at every step of the
      proof. */
  lemma FractionalMarkupExample(t: string)
    requires t == "12.5"
    ensures CheckField("markup", t) == Accept(Fraction(0.125))
  {
    TwelveAndAHalf(t);
  }

  /** `parseFloat("12.5")` is 12.5 (the text is a parameter for the same
      reason as in `FractionalMarkupExample`). */
  lemma TwelveAndAHalf(t: string)
    requires t == "12.5"
    ensures ParseFloat(t) == Some(12.5)
  {
    TwelveAndAHalfParts();
    assert t[..2] == "12" && t[3..] == "5";
    ParseFloatFraction(t, "12", "5");
  }

  lemma TwelveAndAHalfParts()
    ensures AllDigits("12") && DigitsValue("12") == 12
    ensures AllDigits("5") && DigitsValue("5") == 5
    ensures Scale(5.0, -1) == 0.5
  {
    TwoDigits('1', '2');
    assert "5"[..0] == [];
    ScaleValue(5.0, -1);
  }

  /** Every positive count, written in decimal, is accepted as itself; zero
      and negative numbers are refused. */
  lemma {:induction false} CountRoundTrip(field: string, n: int)
    requires field == "supplierPrice" || field == "packSize"
    ensures CheckField(field, IntToString(n)) == if n > 0 then Accept(Count(n)) else Reject(BadInteger)
  {
    ParseIntToString(n);
  }

  /** An accepted price or pack size holds a digit, and the count kept is the
      positive number `parseInt` reads. */
  lemma {:induction false} AcceptedCountHasDigit(field: string, value: string)
    requires field == "supplierPrice" || field == "packSize"
    requires CheckField(field, value).Accept?
    ensures exists i :: 0 <= i < |value| && IsDigit(value[i])
    ensures ParseInt(value) == Some(CheckField(field, value).value.count) && CheckField(field, value).value.count > 0
  {
    ParseIntNeedsDigit(value);
  }

  /** `/listflowers` lists every product once: an id is listed exactly when a
      product has it, with that product's name, and with unique ids no id is
      listed twice. */
  lemma ListingCoversCatalog(flowers: seq<Flower>)
    ensures forall id ::
      (HasId(flowers, id) <==> exists k :: 0 <= k < |Listed(flowers)| && Listed(flowers)[k].0 == id)
    ensures forall k :: 0 <= k < |flowers| ==> Listed(flowers)[k] == (flowers[k].id, flowers[k].name)
    ensures UniqueIds(flowers) ==>
      forall i, j :: 0 <= i < j < |Listed(flowers)| ==> Listed(flowers)[i].0 != Listed(flowers)[j].0
  {
    var entries := Listed(flowers);
    forall id
      ensures HasId(flowers, id) <==> exists k :: 0 <= k < |entries| && entries[k].0 == id
    {
      if HasId(flowers, id) {
        var i :| 0 <= i < |flowers| && flowers[i].id == id;
        assert entries[i].0 == id;
      }
    }
  }

  /** Ids are reused: after deleting the product with the largest id, the next
      product gets that id again. */
  lemma IdReusedAfterDelete(a: Flower, b: Flower, c: Flower)
    requires a.id == 1 && b.id == 2 && c.id == 3
    ensures NextId([a, b, c]) == 4
    ensures var after := [a, b, c][..2] + [a, b, c][3..];
      after == [a, b] && NextId(after) == 3
  {
    assert [a, b, c][1..] == [b, c];
    assert [b, c][1..] == [c];
    assert MaxId([b, c]) == 3;
    assert MaxId([a, b, c]) == 3;
    assert [a, b, c][..2] + [a, b, c][3..] == [a, b];
    assert [a, b][1..] == [b];
  }

  /** The order guard only checks that each field is present and not zero:
      a negative quantity or total passes it. */
  lemma GuardChecksPresenceOnly(quantity: real, total: real, phone: string, delivered: bool)
    ensures PostOrder(OrderRequest(Object, Num(quantity), Num(total), Str(phone)), delivered)
      == if quantity != 0.0 && total != 0.0 && phone != "" then Answered(if delivered then 200 else 500, true)
         else Answered(400, false)
    ensures PostOrder(OrderRequest(Object, Num(-1.0), Num(-100.0), Str("+7")), delivered)
      == Answered(if delivered then 200 else 500, true)
  {
  }

  lemma TwoDigits(a: char, b: char)
    requires IsDigit(a) && IsDigit(b)
    ensures AllDigits([a, b])
    ensures DigitsValue([a, b]) == 10 * (a as int - '0' as int) + (b as int - '0' as int)
  {
    assert [a, b][..1] == [a];
    assert [a][..0] == [];
    assert DigitsValue([a]) == a as int - '0' as int;
    assert DigitsValue([a, b]) == 10 * DigitsValue([a]) + (b as int - '0' as int);
  }

  /** The operator's bot: the sessions of the add-a-product dialogue and the
      catalog file. */
  class CatalogBot {
    /** `CHAT_ID`: the one chat allowed to edit the catalog. */
    const chatId: string
    var sessions: map<string, Session>
    var flowers: seq<Flower>

    /** Sessions exist only for the operator's chat, and each one is in
        progress with exactly the fields before its step collected. */
    ghost predicate Valid()
      reads this
    {
      && sessions.Keys <= {chatId}
      && forall c :: c in sessions ==> SessionOk(sessions[c])
    }

    constructor (operator: string, catalog: seq<Flower>)
      ensures Valid()
      ensures chatId == operator && sessions == map[] && flowers == catalog
    {
      chatId := operator;
      sessions := map[];
      flowers := catalog;
    }

    /** `/addflower`: the operator starts (or restarts) the dialogue; anyone
        else is refused. */
    method AddFlower(chat: string) returns (reply: Reply)
      requires Valid()
      modifies this
      ensures Valid() && flowers == old(flowers)
      ensures chat != chatId ==> sessions == old(sessions) && reply == AccessDenied
      ensures chat == chatId ==> sessions == old(sessions)[chat := Session(0, map[])] && reply == Prompt(0)
    {
      if chat != chatId {
        return AccessDenied;
      }
      sessions := sessions[chat := Session(0, map[])];
      reply := Prompt(0);
    }

    /** `/cancelflower`: drops the chat's session if there is one. */
    method CancelFlower(chat: string) returns (reply: Option<Reply>)
      requires Valid()
      modifies this
      ensures Valid() && flowers == old(flowers)
      ensures sessions == old(sessions) - {chat}
      ensures reply == if chat in old(sessions) then Some(Cancelled) else None
    {
      if chat in sessions {
        sessions := sessions - {chat};
        return Some(Cancelled);
      }
      reply := None;
    }

    /** `/listflowers`: id and name of every product, for the operator only. */
    method ListFlowers(chat: string) returns (reply: Option<Reply>)
      ensures reply == if chat == chatId then Some(Listing(Listed(flowers))) else None
      ensures reply.Some? ==> forall id ::
        (HasId(flowers, id) <==> exists k :: 0 <= k < |reply.value.entries| && reply.value.entries[k].0 == id)
    {
      if chat != chatId {
        return None;
      }
      ListingCoversCatalog(flowers);
      reply := Some(Listing(Listed(flowers)));
    }

    /** `/deleteflower <digits>`: removes the first product with that id. */
    method DeleteFlower(chat: string, idText: string) returns (reply: Option<Reply>)
      requires Valid()
      requires idText != [] && AllDigits(idText)
      modifies this
      ensures Valid() && sessions == old(sessions)
      ensures old(UniqueIds(flowers)) ==> UniqueIds(flowers)
      ensures chat != chatId ==> flowers == old(flowers) && reply == None
      ensures chat == chatId && !HasId(old(flowers), DigitsValue(idText)) ==>
        flowers == old(flowers) && reply == Some(NotFound(DigitsValue(idText)))
      ensures chat == chatId && HasId(old(flowers), DigitsValue(idText)) ==>
        exists k :: 0 <= k < |old(flowers)| && old(flowers)[k].id == DigitsValue(idText)
          && (forall j :: 0 <= j < k ==> old(flowers)[j].id != DigitsValue(idText))
          && flowers == old(flowers)[..k] + old(flowers)[k + 1..]
          && reply == Some(Deleted(old(flowers)[k].name))
    {
      if chat != chatId {
        return None;
      }
      var id := ReadId(idText);
      var index := FindIndex(flowers, id);
      if index == -1 {
        return Some(NotFound(id));
      }
      var deleted := flowers[index];
      RemoveAt(index);
      reply := Some(Deleted(deleted.name));
    }

    /** `flowers.splice(index, 1)` followed by saving the catalog. */
    method RemoveAt(index: int)
      requires Valid() && 0 <= index < |flowers|
      modifies this
      ensures Valid() && sessions == old(sessions)
      ensures flowers == old(flowers)[..index] + old(flowers)[index + 1..]
      ensures old(UniqueIds(flowers)) ==> UniqueIds(flowers)
    {
      if UniqueIds(flowers) {
        RemoveKeepsUnique(flowers, index);
      }
      flowers := flowers[..index] + flowers[index + 1..];
    }

    /** A text message: while the operator's dialogue is open, the answer for
        the current field is checked; an accepted answer is stored and the
        dialogue moves on by exactly one field, and after the seventh the
        product is appended to the catalog with a fresh id and the session
        ends. */
    method OnMessage(chat: string, text: Option<string>) returns (reply: Option<Reply>)
      requires Valid()
      modifies this
      ensures Valid()
      ensures old(UniqueIds(flowers)) ==> UniqueIds(flowers)
      ensures Ignored(old(sessions), chat, text) ==>
        sessions == old(sessions) && flowers == old(flowers) && reply == None
      ensures !Ignored(old(sessions), chat, text) ==>
        var s := old(sessions)[chat];
        var field := STEPS[s.step];
        var checked := CheckField(field, Trim(text.value));
        && (checked.Reject? ==>
              sessions == old(sessions) && flowers == old(flowers) && reply == Some(checked.complaint))
        && (checked.Accept? && s.step + 1 < |STEPS| ==>
              && sessions == old(sessions)[chat := Session(s.step + 1, s.data[field := checked.value])]
              && flowers == old(flowers)
              && reply == Some(Prompt(s.step + 1)))
        && (checked.Accept? && s.step + 1 == |STEPS| ==>
              var f := BuildFlower(NextId(old(flowers)), s.data[field := checked.value]);
              && flowers == old(flowers) + [f]
              && sessions == old(sessions) - {chat}
              && reply == Some(Added(f)))
    {
      if chat !in sessions {
        return None;
      }
      if text.None? || text.value == "" || StartsWith(text.value, "/") {
        return None;
      }
      var state := sessions[chat];
      var currentStep := STEPS[state.step];
      var value := Trim(text.value);
      var checked := CheckField(currentStep, value);
      if checked.Reject? {
        return Some(checked.complaint);
      }
      var answer := Advance(chat, checked.value);
      reply := Some(answer);
    }

    /** The second half of the message handler: an accepted value is stored
        and the next field asked for, or, after the last field, the product is
        appended to the catalog with the next id and the session closed. */
    method Advance(chat: string, v: FieldValue) returns (reply: Reply)
      requires Valid() && chat in sessions
      requires FieldOk(STEPS[sessions[chat].step], v)
      modifies this
      ensures Valid()
      ensures old(UniqueIds(flowers)) ==> UniqueIds(flowers)
      ensures var s := old(sessions)[chat];
        var field := STEPS[s.step];
        && (s.step + 1 < |STEPS| ==>
              && sessions == old(sessions)[chat := Session(s.step + 1, s.data[field := v])]
              && flowers == old(flowers)
              && reply == Prompt(s.step + 1))
        && (s.step + 1 == |STEPS| ==>
              var f := BuildFlower(NextId(old(flowers)), s.data[field := v]);
              && flowers == old(flowers) + [f]
              && sessions == old(sessions) - {chat}
              && reply == Added(f))
    {
      var state := sessions[chat];
      var currentStep := STEPS[state.step];
      StepKeysNext(state.step);
      var data := state.data[currentStep := v];
      var step := state.step + 1;
      if step >= |STEPS| {
        var newFlower := BuildFlower(NextId(flowers), data);
        if UniqueIds(flowers) {
          AppendNewKeepsUnique(flowers, newFlower);
        }
        flowers := flowers + [newFlower];
        sessions := sessions - {chat};
        reply := Added(newFlower);
      } else {
        sessions := sessions[chat := Session(step, data)];
        reply := Prompt(step);
      }
    }
  }

  // ---------------------------------------------------------------------
  // POST /api/order

  /** The JavaScript values an order field can hold, as far as truthiness and
      writing the notification go. `Object` is an ordinary object;
      `Unformattable` is an object that the message cannot be written from:
      its `toString` and `valueOf` are not functions, or for the total its
      `toLocaleString` is not, or for the flower its `name` is such an
      object. */
  datatype JsValue = Undefined | Null | Bool(b: bool) | Num(x: real) | NaN | Str(s: string) | Object | Unformattable

  predicate Truthy(v: JsValue) {
    match v
    case Undefined => false
    case Null => false
    case NaN => false
    case Bool(b) => b
    case Num(x) => x != 0.0
    case Str(s) => s != ""
    case Object => true
    case Unformattable => true
  }

  /** Whether the field can be written into the notification text. */
  predicate Formattable(v: JsValue) {
    !v.Unformattable?
  }

  datatype OrderRequest = OrderRequest(flower: JsValue, quantity: JsValue, totalPrice: JsValue, phone: JsValue)

  /** An answer with its status code and whether the notification was sent;
      or `Crashed`: writing the notification threw, so nothing was sent and
      the request gets no answer. */
  datatype OrderResponse = Answered(status: int, dispatched: bool) | Crashed

  predicate GuardPasses(req: OrderRequest) {
    Truthy(req.flower) && Truthy(req.quantity) && Truthy(req.totalPrice) && Truthy(req.phone)
  }

  /** The handler of `POST /api/order`; `delivered` stands for the outcome of
      sending the notification. */
  function PostOrder(req: OrderRequest, delivered: bool): (r: OrderResponse)
    ensures !GuardPasses(req) ==> r == Answered(400, false)
    ensures r.Crashed? <==>
      GuardPasses(req) && !(Formattable(req.flower) && Formattable(req.quantity)
                            && Formattable(req.totalPrice) && Formattable(req.phone))
    ensures r.Answered? && r.dispatched ==> r.status == (if delivered then 200 else 500)
    ensures r.Answered? ==> (r.dispatched <==> GuardPasses(req))
  {
    if !GuardPasses(req) then
      Answered(400, false)
    else if !Formattable(req.flower) || !Formattable(req.quantity)
         || !Formattable(req.totalPrice) || !Formattable(req.phone) then
      Crashed
    else
      Answered(if delivered then 200 else 500, true)
  }

  /** A total whose `toLocaleString` is not a function passes the guard and
      then stops the handler: nothing is sent and no answer comes back. */
  lemma UnformattableTotalCrashes(delivered: bool)
    ensures PostOrder(OrderRequest(Object, Num(1.0), Unformattable, Str("x")), delivered) == Crashed
  {
  }
}
